=== FILE: README.md ===
# Wedding gift registry: contribution and payment bookkeeping

This Dafny project models the bookkeeping core of a small Flask gift registry. Guests
contribute money towards gifts (`Presente`). Each contribution (`Contribuicao`) is
recorded as pending. A PIX contribution is approved at once. A card contribution is
sent to Mercado Pago as a payment preference. Mercado Pago later reports the payment's
status through a webhook, and the gift's raised amount (`valor_arrecadado`) moves with it.

The state is a `Ledger.Store`. It holds gifts by id and contributions by id, plus the
next id each table hands out. Every route and script is a pure step function from a
store (and its inputs) to a new store and a reply. Amounts are exact `real`s.

Modules, following the program's files:

- `Gifts`, `Contributions`: the two records, their defaults and their `to_dict` views.
- `Ledger`: the store, the primary-key invariant `Valid`, inserting, adjusting and the cascading delete.
- `MercadoPago`: the preference request and the normalisation of the SDK's reply.
- `ContributionRequests`: what the two `criar_contribuicao` routes share. That is the three input checks and the card checkout with its compensating delete.
- `PaymentRoutes`: the PIX-capable contribution route and the older webhook.
- `PresentRoutes`: the gift listing, a single gift, and the card-only contribution route.
- `Webhook`: the newer webhook, covering the signature header, the status map and the raised-amount delta.
- `Validation`: the `ValidationService` rules.
- `Catalogue`: the `init_sample_data` upsert loop.
- `Migration`: the add-missing-columns migration.
- `Config`, `ProductionChecks`, `Production`: settings, the deployment checklist, the input sanitiser, health aggregation and the JSON guard.
- `Reconciliation`: how the checkout, the duplicate lookup and the webhook fit together.
- `Options`, `Strings`: `Option`/`Result`, Python truthiness, and the Python string operations the code uses.

External calls are parameters or inputs:

- the Mercado Pago SDK's `preference().create` is a `Gateway` function value;
- the results of `processar_webhook` and `testar_credenciais` are inputs;
- HMAC-SHA256, `bleach.clean` and `datetime.isoformat` are function parameters;
- the clock is an integer `now` in seconds.

## Model

| member | source | states |
|---|---|---|
| `Strings.FindFrom` | config.py:10-11 | the index of the first occurrence at or after the start, with no occurrence before it; none exactly when no occurrence follows the start |
| `Strings.SplitLast` | routes/webhook.py:32 | the text after the last separator: a suffix of the input holding no separator, preceded by the separator when one occurs, else the whole input |
| `Strings.ReplaceFirst` | config.py:11 | only the first occurrence of the target is replaced; without one the string is unchanged |
| `Strings.ReplaceFirstAtStart` | config.py:10-11 | for a string starting with the target, the result is the replacement followed by the rest of the string |
| `Strings.RStrip` | routes/payment_routes.py:74 | the result is a prefix of the input, does not end in the character, and only that character was removed |
| `Strings.NatToString` | services/mercado_pago_service.py:46 | `str(id)` is a non-empty string of decimal digits with no leading zero unless the id is 0 |
| `Strings.ParseNatToString` | services/mercado_pago_service.py:46 | parsing the decimal rendering of an id gives the id back |
| `Strings.NatToStringInjective` | services/mercado_pago_service.py:12-14 | distinct ids have distinct renderings |
| `Gifts.NewGift` | models/presente.py:7-14 | a new gift has raised amount 0; a given active flag or image is stored as given, an absent one takes the default (active, the default image); with a positive target it shows progress 0 and is not complete |
| `Gifts.Complete` | models/presente.py:24-26 | for a positive target, complete exactly when raised/total reaches 1; with a non-positive target, any non-negative raised amount is complete |
| `Gifts.RatioReachesOne` | models/presente.py:19-26 | for a positive target, raised/total·100 reaches 100 exactly when raised ≥ total |
| `Gifts.Progress` | models/presente.py:18-22 | never above 100; 0 for a zero target; non-negative when raised is; for a positive target, 100 exactly when the gift is complete, and below that exactly raised/total·100; for any non-zero target, either 100 or raised/total·100 |
| `Gifts.ToView` | models/presente.py:28-38 | the dictionary carries the gift's fields and the derived progress and completion values |
| `Gifts.ViewIsConsistent` | models/presente.py:28-38 | in a view, progress is at most 100, equals 100 iff `esta_completo`, and `esta_completo` iff raised ≥ total |
| `Contributions.NewContribution` | models/contribuicao.py:7-16 | status defaults to `pendente`, method to `cartao`, no payment id, the mandatory fields are kept |
| `Contributions.ToView` | models/contribuicao.py:18-28 | the public dictionary keeps the listed fields; `created_at` is absent exactly when the timestamp is |
| `Contributions.ViewHidesEmailAndPaymentId` | models/contribuicao.py:18-28 | changing the payer email or the payment id does not change the public view |
| `Ledger.InsertContribution` | routes/payment_routes.py:49-50 | the contribution is stored under a fresh id and nothing else changes |
| `Ledger.AdjustRaised` | routes/payment_routes.py:60 | exactly one gift's raised amount moves by the delta; every other record is unchanged |
| `Ledger.DeleteGift` | models/presente.py:16 | the gift and exactly the contributions referencing it are removed; everything else is kept |
| `Ledger.DeleteGiftLeavesNoOrphans` | models/presente.py:16 | if every contribution had its gift before the delete, it still has it afterwards |
| `MercadoPago.BuildRequest` | services/mercado_pago_service.py:12-48 | one item of quantity 1 in BRL charging exactly the amount; the payer; back URLs are base + page + `?contribuicao_id=` + id; the external reference has no leading zero (so it is `str(id)`); the external reference parses to the id; the notification URL rule; the statement descriptor; the title is `Presente: ` + the gift's name and the description `Contribuição para ` + its description |
| `MercadoPago.ReturnUrlIdentifiesContribution` | services/mercado_pago_service.py:12-14 | a return URL determines the contribution id it was built for |
| `MercadoPago.NotificationUrlNeverLocal` | services/mercado_pago_service.py:41-45 | the notification URL never starts with `http://127.0.0.1` |
| `MercadoPago.NormalizeReply` | services/mercado_pago_service.py:57-79 | a result exists iff the SDK returned a response without error status that has a checkout link; the sandbox link wins; other fields pass through |
| `MercadoPago.CreatePreference` | services/mercado_pago_service.py:50-85 | a preference exists exactly when the gateway returned a response without an error status that has a checkout link; its `init_point` is the sandbox link when there is one, else the production link; it carries the id the gateway returned; an exception gives none |
| `ContributionRequests.CheckRequest` | routes/payment_routes.py:16-36 | missing body or key 400, unknown gift 404, non-positive amount 400, in that order; passes exactly the accepted requests |
| `ContributionRequests.CardCheckout` | routes/payment_routes.py:70-99 | no checkout link: the new contribution is deleted and the reply is 500; otherwise the preference id is recorded and the link returned; gifts never change |
| `PaymentRoutes.Contribute` | routes/payment_routes.py:10-99 | rejections change nothing; PIX: contribution `aprovado`, gift raised by exactly the amount; card: failure leaves contributions and gifts as before with 500, success records `payment_id` and returns `init_point`; the invariant `Valid` is kept |
| `PaymentRoutes.PyAdd` | models/presente.py:11 | in-place addition succeeds exactly when both numbers are of one kind, `Decimal` or `float`, and then gives the sum in that kind |
| `PaymentRoutes.PixCommit` | routes/payment_routes.py:58-62 | a raising sum leaves the store as it was with a 500; a sum approves the contribution, sets that gift's raised amount to the sum and touches no other gift |
| `PaymentRoutes.ContributeAsWritten` | routes/payment_routes.py:29-68 | rejections as in `Contribute`; an accepted PIX request answers 500 with the `TypeError` text, keeps the committed contribution `pendente` and leaves every gift unchanged; other methods behave as `Contribute` |
| `PaymentRoutes.PixAsWrittenNeverApproves` | routes/payment_routes.py:55-68 | for every accepted PIX request the route as written answers 500 with the contribution pending and the gift unchanged, where `Contribute` answers 200, approves it and adds the amount |
| `PaymentRoutes.LegacyWebhook` | routes/payment_routes.py:111-137 | `approved` sets `aprovado` and adds the amount; `cancelled`/`rejected` set `cancelado` with raised unchanged; other statuses and unknown ids change nothing; missing keys or a missing gift give 500 with nothing changed |
| `PaymentRoutes.LegacyApprovedTwiceCountsTwice` | routes/payment_routes.py:118-130 | delivering `approved` twice raises the gift by twice the amount |
| `PresentRoutes.ActiveIds` | routes/present_routes.py:13 | strictly increasing ids of exactly the active gifts in a range |
| `PresentRoutes.Views` | routes/present_routes.py:16 | one `to_dict` view per id, in the same order |
| `PresentRoutes.ListPresents` | routes/present_routes.py:11-17 | every listed entry is the view of an active gift |
| `PresentRoutes.ListPresentsComplete` | routes/present_routes.py:13-16 | every active gift is listed, with ids strictly increasing (the model's choice of order), so none twice |
| `PresentRoutes.InactiveNotListed` | routes/present_routes.py:13 | an inactive gift never appears in the listing |
| `PresentRoutes.GetPresent` | routes/present_routes.py:27-38 | 200 with the gift's view iff the id exists, else 404; the active flag is not consulted |
| `PresentRoutes.Contribute` | routes/present_routes.py:43-119 | the same three rejections with no change; the contribution is `pendente`/`cartao` whatever the payload says; no link deletes it with 500; no gift's raised amount ever changes |
| `Webhook.SelectSignatureHeader` | routes/webhook.py:56 | `X-Signature` when non-empty, else `X-Request-Id` |
| `Webhook.SignatureValue` | routes/webhook.py:30-34 | with `v1=` present, the text after its last occurrence; otherwise the whole header |
| `Webhook.VerifySignature` | routes/webhook.py:15-47 | every path accepts |
| `Webhook.MapStatus` | routes/webhook.py:89-100 | `approved`→`aprovado`, `in_process`/`pending`→`pendente`, `cancelled`/`rejected`→`cancelado`, `refunded`→`reembolsado`, anything else stored as given |
| `Webhook.CountedStatuses` | routes/webhook.py:89-106 | exactly `approved` and `aprovado` map to the counted status |
| `Webhook.RefundStatuses` | routes/webhook.py:89-108 | exactly `refunded` and `reembolsado` map to the refunded status |
| `Webhook.MapStatusIdempotent` | routes/webhook.py:89-100 | mapping twice is mapping once |
| `Webhook.RaisedDelta` | routes/webhook.py:103-108 | `aprovado` adds the amount, `reembolsado` subtracts it, every other status moves nothing |
| `Webhook.HandleWebhook` | routes/webhook.py:50-119 | 401 never happens; no result 200, missing id 400, unknown contribution 404, none changing state; otherwise the mapped status is stored, the gift moves by the delta, and the reply echoes the provider status |
| `Webhook.ApprovedTwiceCountsTwice` | routes/webhook.py:100-112 | a re-delivered `approved` adds the amount a second time |
| `Webhook.ApproveThenRefundRestores` | routes/webhook.py:103-108 | `approved` then `refunded` returns the gift to its raised amount |
| `Webhook.RefundCanMakeRaisedNegative` | routes/webhook.py:107-108 | a refund of more than was raised drives the raised amount below zero |
| `Validation.ValidateContribution` | services/validation_service.py:12-42 | every message is one of the four, in check order (availability, minimum, rate) with none repeated; not-found iff the gift is unknown, and then the list is not-found plus at most the rate message; unavailable iff the gift is inactive; the minimum error iff amount < 5.00 for a known gift; the rate error iff the email is non-empty with ≥ 5 recent attempts; no errors iff all checks pass |
| `Validation.InCheckOrderDetermined` | services/validation_service.py:14-42 | two message lists in check order holding the same messages are equal |
| `Validation.ErrorsDetermined` | services/validation_service.py:12-42 | any list in check order reporting exactly the failing checks is the validator's answer |
| `Validation.RateLimited` | services/validation_service.py:30-40 | only a non-empty email is limited, and only when it has a contribution created inside the five-minute window |
| `Validation.MinimumIsInclusive` | services/validation_service.py:23-27 | exactly 5.00 passes the minimum and 4.99 does not, whatever the active flag |
| `Validation.IsDuplicate` | services/validation_service.py:45-47 | true iff some contribution carries that payment id |
| `Validation.DailyLimitExceeded` | services/validation_service.py:50-53 | always false |
| `Validation.GiftAvailable` | services/validation_service.py:56-66 | available iff the gift exists and is active, with the not-found or unavailable reason otherwise; completion is not consulted |
| `Validation.AvailabilityAgrees` | services/validation_service.py:17-21 | the availability reason is the first error of the contribution validation, and an available gift gives no availability error |
| `Catalogue.SampleNamesDistinct` | init_db.py:14-64 | the seven sample gifts have pairwise distinct names |
| `Catalogue.FindByName` | init_db.py:70 | an id in range with that name and no lower such id, or none when no gift in range has it |
| `Catalogue.Upsert` | init_db.py:70-82 | an update happens exactly when `FindByName` finds a gift of that name, and then only that first match has its description, target, active flag and image overwritten while every other gift is unchanged; afterwards a gift carries the sample's fields; existing gifts keep id, name, raised amount and creation time; differently named gifts are untouched; an added gift is the constructor's new gift (raised 0, created now); a new gift only when the name was not taken |
| `Catalogue.InitSampleData` | init_db.py:66-84 | updated + added equals the sample count; the gift counter grows by exactly `added`; a gift that is not the first match for its name is unchanged; every added gift starts with 0 raised and creation time `now`; every sample name has a gift; matched gifts keep id and raised amount; unnamed gifts and all contributions unchanged; no additions when every name was already present |
| `Catalogue.InitSampleCatalogue` | init_db.py:14-84 | seven samples counted, each present with its catalogue fields, and a second run adds nothing |
| `Migration.ColumnExists` | migrations/001_add_cpf_telefone.py:11-14 | true iff the name is among the table's column names |
| `Migration.AddIfMissing` | migrations/001_add_cpf_telefone.py:33-39 | a missing column is appended and reported; an existing one changes nothing |
| `Migration.Migrate` | migrations/001_add_cpf_telefone.py:17-52 | no database file or no table: no change; otherwise the table becomes its old columns followed by the missing ones of `cpf_contribuinte VARCHAR(20)` and `telefone_contribuinte VARCHAR(30)`, in that order, those names are reported, and other tables are untouched |
| `Migration.MigrateIdempotent` | migrations/001_add_cpf_telefone.py:43-46 | a second run changes nothing and reports no column |
| `Config.Lookup` | config.py:9 | a value exactly when the variable is set, and then the variable's value |
| `Config.LookupOr` | config.py:6 | the variable's value when set (even empty), the default only when absent |
| `Config.RewriteDatabaseUrl` | config.py:10-11 | a non-empty `postgres://` URL becomes `postgresql://` plus the same remainder; anything else is unchanged |
| `Config.RewriteIdempotent` | config.py:10-11 | rewriting twice is rewriting once |
| `Config.DatabaseUri` | config.py:9-13 | never empty; an absent or empty `DATABASE_URL` gives `sqlite:///wedding_gifts.db`; otherwise the URL, with the scheme rewritten |
| `Config.DatabaseUriFixedPoint` | config.py:9-13 | feeding the resolved URI back as `DATABASE_URL` resolves to the same URI |
| `Config.Load` | config.py:4-18 | the secret key defaults to `chave-secreta-padrao-mudar-em-producao`, the access token and webhook URL to empty |
| `ProductionChecks.SecretKeyOk` | check_production.py:80-95 | passes iff the key is non-empty, not the default, and at least 32 characters long |
| `ProductionChecks.DefaultSecretOnlyCaughtByComparison` | check_production.py:85-91 | the default key is long enough, so only the comparison with it rejects an unset key |
| `ProductionChecks.DatabaseOk` | check_production.py:61-78 | empty fails; containing `postgresql` passes; else passes iff it contains `sqlite` |
| `ProductionChecks.ConfiguredDatabasesPass` | check_production.py:64-75 | the SQLite fallback and every rewritten `postgres://` URL pass |
| `ProductionChecks.TokenPrecheck` | check_production.py:10-25 | an empty token, a `TEST-` token and a token not starting `APP_USR-` fail before any call |
| `ProductionChecks.PrecheckIsProductionPrefix` | check_production.py:18-25 | the precheck passes exactly for tokens starting `APP_USR-` |
| `ProductionChecks.MercadoPagoOk` | check_production.py:6-59 | a failed precheck fails whatever the probe; otherwise passes iff the probe returned a response with `init_point` |
| `ProductionChecks.UrlsOk` | check_production.py:97-110 | fails iff `RENDER` is set and `SITE_URL` is empty |
| `ProductionChecks.EnvironmentOk` | check_production.py:112-120 | always passes |
| `ProductionChecks.Verdict` | check_production.py:126-134 | the conjunction of the secret, database, Mercado Pago and URL checks, without the environment check |
| `ProductionChecks.EmptyEnvironmentFails` | check_production.py:83-88 | with nothing configured the secret and token checks fail and so does the verdict, whatever the probe |
| `ProductionChecks.VerdictNeedsProductionToken` | check_production.py:23-25 | a passing verdict implies an `APP_USR-` token and a secret of at least 32 characters |
| `Production.Sanitize` | production.py:47-55 | strings become `clean(s)`; null, booleans and numbers are unchanged; lists keep their length; objects keep their keys in order |
| `Production.SanitizeMembers` | production.py:51-54 | each list element and each object value is sanitised in place |
| `Production.SanitizeKeepsShape` | production.py:47-55 | sanitising changes only strings, never the structure |
| `Production.SanitizeIdentity` | production.py:49-50 | with a cleaner that changes nothing, sanitising changes nothing |
| `Production.SanitizeIdempotent` | production.py:47-55 | with an idempotent cleaner, sanitising twice is sanitising once |
| `Production.Probes` | production.py:37-42 | the four probes in order, each `ok` exactly when its reading succeeded |
| `Production.Healthcheck` | production.py:44-45 | the code is 200 or 503, and the body says healthy iff it is 200 |
| `Production.AllOkFromMeansEvery` | production.py:44 | the probe-by-probe test holds iff every probe in the range says `ok` |
| `Production.HealthyIffAllProbesSucceed` | production.py:44-45 | 200 iff every probe's status is `ok` |
| `Production.EndpointHealthy` | production.py:36-45 | `/healthz` is healthy iff the database, credentials, memory and uptime probes all succeed |
| `Production.ValidateRequestJson` | production.py:57-74 | non-JSON gets 400 before the handler; an unparsable body or a raising handler gets 400 `Invalid JSON format`; otherwise the handler's reply on the sanitised body |
| `Production.NonJsonNeverReachesHandler` | production.py:62-63 | for a non-JSON request the reply does not depend on the handler |
| `Reconciliation.CardCheckoutIsRecorded` | routes/payment_routes.py:90-99 | after a successful checkout the duplicate lookup finds the preference id; after a failed one the duplicate lookup answers as before |
| `Reconciliation.CardThenApprovedAddsOnce` | routes/webhook.py:100-108 | the first `approved` notification after a checkout approves the contribution and raises the gift by exactly its amount |

## Left out

- Flask routing, request and response objects, the HTML pages `/obrigado`, `/erro` and `/pendente`, and the security headers are not modelled. Each handler is its own function. Which of the duplicate `/api/contribuir` and `/webhook/mercadopago` rules wins (routes/__init__.py) is decided by the framework and is not modelled.
- The Mercado Pago SDK is a `Gateway` parameter. `processar_webhook` and `testar_credenciais` are not part of this model; their results are inputs.
- HMAC-SHA256, `bleach.clean`, `datetime.utcnow`/`isoformat`, `psutil` and `time` are parameters or inputs. Timestamps are whole seconds, so the five-minute window is 300.
- Persistence, commits, rollbacks and concurrent workers are not modelled. Each handler is one atomic step.
- Generic `except Exception` paths that come from the database or from Python errors are not modelled: a 500 with `str(e)`, and the migration's rollback. Three exceptions the code raises on reachable inputs are modelled. In the older webhook, missing keys and a missing gift give 500 replies. The PIX branch's `Decimal += float` is modelled by `PaymentRoutes.ContributeAsWritten` (see Findings).
- `PaymentRoutes.Contribute`: this is the intended PIX route, which approves the contribution and adds the amount. The route as written raises at that addition; see Findings.
- Ids come from a counter, like a PostgreSQL sequence. SQLite's reuse of the largest deleted rowid is not modelled. The invariant `Ledger.Valid` states only what both give: a fresh id is unused.
- Amounts are exact reals. `float(...)` rounding is not modelled, and neither are parse failures of `valor` or the `Numeric(10,2)` scale.
- JSON `null` values in the contribution request (for example `"nome": null`) are not modelled: a key is either absent or carries a value of the expected type. Likewise `"metodo_pagamento": null` is treated as absent.
- `Catalogue.FindByName`: `filter_by(...).first()` has no `ORDER BY`. The model takes the lowest id, which is SQLite's table-scan order.
- `Webhook.HandleWebhook`: the payload parse is an input bit. The newer webhook's `resultado.get('status')` on an absent key is the same `None` the model stores.
- `PresentRoutes.ListPresents`: `filter_by(ativo=True).all()` has no `ORDER BY`, so the source promises no order. The model lists in id order, which is SQLite's table-scan order. Its own contract states only that every entry is an active gift's view. Completeness and the id order are in `PresentRoutes.ListPresentsComplete`, which needs the store invariant.
- `MercadoPago.NormalizeReply`: a response whose `sandbox_init_point` or `init_point` key holds `null` is treated like an absent key. The source returns such a response, and the route then answers 200 with `payment_url: null`. `ContributionRequests.CardCheckout` and the `Contribute` routes therefore cannot produce that reply. Likewise a `status` key holding `null` is treated as absent, so the model can return a preference. In the source, `None >= 400` raises a `TypeError`, the `except` catches it, and the result is `None`.
- `PaymentRoutes.LegacyWebhook`: a webhook result whose `status` key holds `null` is treated like an absent key and answered 500. In the source, `None` matches neither branch, so the handler commits nothing new and answers 200.
- `ProductionChecks.MercadoPagoOk`: a response whose `init_point` key holds `null` counts as having no link. The source tests only that the key is present.
- The console output of the scripts and the migration's messages are not modelled, beyond the list of added columns.
- `PaymentRoutes.LegacyWebhook` and `Webhook.HandleWebhook`: a `processar_webhook` result is `None` when it is empty, so an empty dictionary is not told apart from no result. A `contribuicao_id` key holding `null` is treated like an absent key.
- `Webhook.VerifySignature` and `Webhook.HandleWebhook`: with a truthy secret and a signature value holding a non-ASCII character, `hmac.compare_digest` (routes/webhook.py:42) raises a `TypeError`. That call is outside any `try`, so the route answers 500 and changes nothing. The model accepts such a request and applies it. The path needs `MERCADOPAGO_WEBHOOK_SECRET`, which config.py never defines, so `getattr` gives `None` and the check is skipped.

## Findings

| source | as written | input that shows it | evidently intended | confidence | as-written member | corrected member |
|---|---|---|---|---|---|---|
| routes/payment_routes.py:29,60 with models/presente.py:11 | the PIX branch adds `float(data['valor'])` to `valor_arrecadado`, a `Numeric` column that loads as `Decimal`; `Decimal += float` raises `TypeError`, so the request ends in the generic 500 handler with the contribution committed as `pendente` | any accepted request with `metodo_pagamento: "pix"`, e.g. `{"presente_id": 1, "nome": "A", "email": "a@b", "valor": 10, "metodo_pagamento": "pix"}` for an existing gift 1 | the contribution is approved and the gift's raised amount grows by the amount, with a 200 reply | not executed; high (the newer webhook converts both sides with `float(...)` before adding, at routes/webhook.py:106) | `PaymentRoutes.ContributeAsWritten`, `PaymentRoutes.PixAsWrittenNeverApproves` | `PaymentRoutes.Contribute` |

=== FILE: catalogue.dfy ===
/** `init_sample_data`: the catalogue seeding loop. Each sample gift is matched by
    name; a match has its catalogue fields overwritten, otherwise a new gift is added. */
module Catalogue {
  import opened Options
  import opened Gifts
  import opened Ledger

  datatype SampleGift = SampleGift(name: string, description: string, total: real, active: bool, imageUrl: string)

  /** The seven gifts the registry ships with. */
  const SAMPLE_GIFTS: seq<SampleGift> := [
    SampleGift("Só para dizer que não dei nada", "", 100.00, true, "/static/images/julios.png"),
    SampleGift("Para o noivo estar coberto de razão", "", 80.00, true, "/static/images/cobertor.png"),
    SampleGift("Dei o MELHOR presente", "", 300.00, true, "/static/images/melhor.png"),
    SampleGift("Ajude a pagar o Casamento", "", 250.00, true, "/static/images/ajude.png"),
    SampleGift("Pagar a paciência da noiva", "", 80.00, true, "/static/images/paciencia.png"),
    SampleGift("Deus tocou seu coração", "", 100.00, true, "/static/images/sourica.png"),
    SampleGift("Taxa para não jogar o buquê para o seu par", "", 120.00, true, "/static/images/buque.png")
  ]

  predicate DistinctNames(samples: seq<SampleGift>) {
    forall i, j :: 0 <= i < j < |samples| ==> samples[i].name != samples[j].name
  }

  lemma SampleNamesDistinct()
    ensures |SAMPLE_GIFTS| == 7 && DistinctNames(SAMPLE_GIFTS)
  {
  }

  /** A gift record carries the sample's catalogue fields. */
  predicate Matches(g: Gift, s: SampleGift) {
    g.name == s.name && g.description == s.description && g.total == s.total
    && g.active == s.active && g.imageUrl == s.imageUrl
  }

  /** Some gift of `st` carries the sample's catalogue fields. */
  ghost predicate HasRecord(st: Store, s: SampleGift) {
    exists id :: id in st.gifts && Matches(st.gifts[id], s)
  }

  ghost predicate NameTaken(st: Store, name: string) {
    exists id :: id in st.gifts && st.gifts[id].name == name
  }

  /** What seeding never changes about an existing gift: its id, name, raised amount
      and creation time. */
  predicate Kept(before: Gift, after: Gift) {
    after.id == before.id && after.name == before.name
    && after.raised == before.raised && after.createdAt == before.createdAt
  }

  /** `filter_by(nome=...).first()`: the lowest id in `[from, bound)` whose gift has this name. */
  function FindByName(gifts: map<nat, Gift>, name: string, from: nat, bound: nat): (r: Option<nat>)
    ensures r.Some? ==> from <= r.value < bound && r.value in gifts && gifts[r.value].name == name
    ensures r.Some? ==> forall j :: from <= j < r.value && j in gifts ==> gifts[j].name != name
    ensures r.None? ==> forall id :: from <= id < bound && id in gifts ==> gifts[id].name != name
    decreases bound - from
  {
    if from >= bound then None
    else if from in gifts && gifts[from].name == name then Some(from)
    else FindByName(gifts, name, from + 1, bound)
  }

  /** One iteration of the loop: overwrite the first gift with the sample's name, or add
      the sample as a new gift. Returns whether it was an update. */
  function Upsert(st: Store, s: SampleGift, now: int): (r: (Store, bool))
    requires Valid(st)
    ensures Valid(r.0)
    ensures HasRecord(r.0, s)
    ensures forall id :: id in st.gifts ==> id in r.0.gifts && Kept(st.gifts[id], r.0.gifts[id])
    ensures forall id :: id in st.gifts && st.gifts[id].name != s.name ==> r.0.gifts[id] == st.gifts[id]
    ensures r.1 ==> r.0.gifts.Keys == st.gifts.Keys && r.0.nextGiftId == st.nextGiftId
    ensures !r.1 ==> r.0.gifts.Keys == st.gifts.Keys + {st.nextGiftId} && r.0.nextGiftId == st.nextGiftId + 1
    ensures NameTaken(st, s.name) ==> r.1
    ensures r.1 <==> FindByName(st.gifts, s.name, 0, st.nextGiftId).Some?
    ensures r.1 ==> var m := FindByName(st.gifts, s.name, 0, st.nextGiftId).value;
              r.0.gifts == st.gifts[m := st.gifts[m].(description := s.description, total := s.total,
                                                      active := s.active, imageUrl := s.imageUrl)]
    ensures !r.1 ==> r.0.gifts[st.nextGiftId] == NewGift(st.nextGiftId, s.name, s.description, s.total,
                                                         Some(s.active), Some(s.imageUrl), now)
    ensures r.0.contributions == st.contributions && r.0.nextContributionId == st.nextContributionId
  {
    match FindByName(st.gifts, s.name, 0, st.nextGiftId)
    case Some(id) =>
      var g := st.gifts[id].(description := s.description, total := s.total, active := s.active, imageUrl := s.imageUrl);
      assert Matches(g, s);
      var st' := st.(gifts := st.gifts[id := g]);
      assert id in st'.gifts && st'.gifts[id] == g;
      (st', true)
    case None =>
      var id := st.nextGiftId;
      var g := NewGift(id, s.name, s.description, s.total, Some(s.active), Some(s.imageUrl), now);
      assert Matches(g, s);
      var st' := st.(gifts := st.gifts[id := g], nextGiftId := id + 1);
      assert id in st'.gifts && st'.gifts[id] == g;
      (st', false)
  }

  /** Every one of the first `n` samples has a gift of its name in `cur`. */
  ghost predicate NamesSeeded(cur: Store, samples: seq<SampleGift>, n: nat)
    requires n <= |samples|
  {
    forall k :: 0 <= k < n ==> NameTaken(cur, samples[k].name)
  }

  /** Every one of the first `n` samples has a gift carrying its catalogue fields in `cur`. */
  ghost predicate FieldsSeeded(cur: Store, samples: seq<SampleGift>, n: nat)
    requires n <= |samples|
  {
    forall k :: 0 <= k < n ==> HasRecord(cur, samples[k])
  }

  /** Every gift of `st` is still in `cur` with its id, name, raised amount and creation time. */
  predicate KeepsAll(st: Store, cur: Store) {
    forall id :: id in st.gifts ==> id in cur.gifts && Kept(st.gifts[id], cur.gifts[id])
  }

  /** Gifts of `st` whose name none of the first `n` samples carries are unchanged in `cur`. */
  predicate UnnamedUntouched(st: Store, cur: Store, samples: seq<SampleGift>, n: nat)
    requires n <= |samples|
  {
    forall id :: id in st.gifts && (forall k :: 0 <= k < n ==> samples[k].name != st.gifts[id].name) ==>
      id in cur.gifts && cur.gifts[id] == st.gifts[id]
  }

  /** Every gift of `cur` that `st` did not have was added by seeding: it starts with
      nothing raised and was created at `now`. */
  predicate AddedFresh(st: Store, cur: Store, now: int) {
    forall id :: id in cur.gifts && id !in st.gifts ==> cur.gifts[id].raised == 0.0 && cur.gifts[id].createdAt == now
  }

  lemma AddedFreshStep(st: Store, before: Store, s: SampleGift, now: int)
    requires Valid(before) && AddedFresh(st, before, now) && st.gifts.Keys <= before.gifts.Keys
    ensures AddedFresh(st, Upsert(before, s, now).0, now)
  {
  }

  /** Gifts of `st` that are not the first match for their own name are unchanged in `cur`:
      the seeding loop only ever overwrites a name's first match. */
  predicate NonFirstUntouched(st: Store, cur: Store) {
    forall id :: id in st.gifts && FindByName(st.gifts, st.gifts[id].name, 0, st.nextGiftId) != Some(id) ==>
      id in cur.gifts && cur.gifts[id] == st.gifts[id]
  }

  lemma NonFirstUntouchedStep(st: Store, before: Store, s: SampleGift, now: int)
    requires Valid(st) && Valid(before) && KeepsAll(st, before) && NonFirstUntouched(st, before)
    ensures NonFirstUntouched(st, Upsert(before, s, now).0)
  {
    var after := Upsert(before, s, now).0;
    forall id | id in st.gifts && FindByName(st.gifts, st.gifts[id].name, 0, st.nextGiftId) != Some(id)
      ensures id in after.gifts && after.gifts[id] == st.gifts[id]
    {
      var name := st.gifts[id].name;
      if name == s.name {
        // A lower id carries the name in `st`, and still does in `before`.
        var first := FindByName(st.gifts, name, 0, st.nextGiftId);
        assert first.Some? && first.value < id;
        assert Kept(st.gifts[first.value], before.gifts[first.value]);
        var m := FindByName(before.gifts, name, 0, before.nextGiftId);
        assert m.Some? && m.value <= first.value;
      }
    }
  }

  lemma NamesSeededStep(before: Store, samples: seq<SampleGift>, i: nat, now: int)
    requires Valid(before) && i < |samples| && NamesSeeded(before, samples, i)
    ensures NamesSeeded(Upsert(before, samples[i], now).0, samples, i + 1)
  {
  }

  lemma FieldsSeededStep(before: Store, samples: seq<SampleGift>, i: nat, now: int)
    requires Valid(before) && i < |samples| && DistinctNames(samples) && FieldsSeeded(before, samples, i)
    ensures FieldsSeeded(Upsert(before, samples[i], now).0, samples, i + 1)
  {
  }

  lemma KeepsAllStep(st: Store, before: Store, s: SampleGift, now: int)
    requires Valid(before) && KeepsAll(st, before)
    ensures KeepsAll(st, Upsert(before, s, now).0)
  {
  }

  lemma UnnamedUntouchedStep(st: Store, before: Store, samples: seq<SampleGift>, i: nat, now: int)
    requires Valid(before) && i < |samples| && UnnamedUntouched(st, before, samples, i)
    ensures UnnamedUntouched(st, Upsert(before, samples[i], now).0, samples, i + 1)
  {
  }

  /** The seeding loop over `samples`, counting updates and additions. */
  method InitSampleData(st: Store, samples: seq<SampleGift>, now: int) returns (result: Store, updated: nat, added: nat)
    requires Valid(st)
    ensures Valid(result)
    ensures updated + added == |samples|
    ensures forall k :: 0 <= k < |samples| ==> NameTaken(result, samples[k].name)
    ensures DistinctNames(samples) ==> FieldsSeeded(result, samples, |samples|)
    ensures forall id :: id in st.gifts ==> id in result.gifts && Kept(st.gifts[id], result.gifts[id])
    ensures forall id :: id in st.gifts && (forall k :: 0 <= k < |samples| ==> samples[k].name != st.gifts[id].name) ==>
              result.gifts[id] == st.gifts[id]
    ensures result.contributions == st.contributions
    ensures AddedFresh(st, result, now)
    ensures result.nextGiftId == st.nextGiftId + added
    ensures NonFirstUntouched(st, result)
    ensures NamesSeeded(st, samples, |samples|) ==> added == 0 && result.gifts.Keys == st.gifts.Keys
  {
    result, updated, added := st, 0, 0;
    var i := 0;
    var allNamed := NamesSeeded(st, samples, |samples|);
    while i < |samples|
      invariant 0 <= i <= |samples|
      invariant Valid(result)
      invariant updated + added == i
      invariant NamesSeeded(result, samples, i)
      invariant DistinctNames(samples) ==> FieldsSeeded(result, samples, i)
      invariant KeepsAll(st, result)
      invariant UnnamedUntouched(st, result, samples, i)
      invariant result.contributions == st.contributions
      invariant AddedFresh(st, result, now)
      invariant result.nextGiftId == st.nextGiftId + added
      invariant NonFirstUntouched(st, result)
      invariant allNamed ==> added == 0 && result.gifts.Keys == st.gifts.Keys
    {
      NamesSeededStep(result, samples, i, now);
      if DistinctNames(samples) {
        FieldsSeededStep(result, samples, i, now);
      }
      KeepsAllStep(st, result, samples[i], now);
      UnnamedUntouchedStep(st, result, samples, i, now);
      AddedFreshStep(st, result, samples[i], now);
      NonFirstUntouchedStep(st, result, samples[i], now);
      if allNamed {
        assert NameTaken(st, samples[i].name);
        var id :| id in st.gifts && st.gifts[id].name == samples[i].name;
        assert Kept(st.gifts[id], result.gifts[id]);
        assert NameTaken(result, samples[i].name);
      }
      var step := Upsert(result, samples[i], now);
      result := step.0;
      if step.1 {
        updated := updated + 1;
      } else {
        added := added + 1;
      }
      i := i + 1;
    }
  }

  /** Seeding the shipped catalogue: the seven samples are each counted as updated or
      added, each ends up present with its catalogue fields, and a second run adds nothing. */
  method InitSampleCatalogue(st: Store, now: int) returns (first: Store, second: Store, updated: nat, added: nat, addedAgain: nat)
    requires Valid(st)
    ensures updated + added == 7
    ensures forall k :: 0 <= k < |SAMPLE_GIFTS| ==> HasRecord(first, SAMPLE_GIFTS[k])
    ensures addedAgain == 0 && second.gifts.Keys == first.gifts.Keys
    ensures second.contributions == st.contributions
  {
    SampleNamesDistinct();
    var updatedAgain;
    first, updated, added := InitSampleData(st, SAMPLE_GIFTS, now);
    second, updatedAgain, addedAgain := InitSampleData(first, SAMPLE_GIFTS, now);
  }
}

=== FILE: config.dfy ===
/** `config.py`: the settings read from the environment when the application starts,
    with the Heroku/Render-style `postgres://` scheme rewritten for SQLAlchemy. */
module Config {
  import opened Options
  import opened Strings

  /** The process environment. */
  type Env = map<string, string>

  const DEFAULT_SECRET_KEY: string := "chave-secreta-padrao-mudar-em-producao"
  const DEFAULT_DATABASE_URI: string := "sqlite:///wedding_gifts.db"
  const POSTGRES_SCHEME: string := "postgres://"
  const POSTGRESQL_SCHEME: string := "postgresql://"

  /** `os.environ.get(key)`. */
  function Lookup(env: Env, key: string): (r: Option<string>)
    ensures r.Some? <==> key in env
    ensures r.Some? ==> r.value == env[key]
  {
    if key in env then Some(env[key]) else None
  }

  /** `os.environ.get(key, default)`: an empty value is kept, only absence falls back. */
  function LookupOr(env: Env, key: string, default: string): (r: string)
    ensures key in env ==> r == env[key]
    ensures key !in env ==> r == default
  {
    Lookup(env, key).GetOr(default)
  }

  /** A non-empty `postgres://` URL has its first `postgres://` replaced; anything else,
      including an absent or empty value, is left as it is. */
  function RewriteDatabaseUrl(url: Option<string>): (r: Option<string>)
    ensures Truthy(url) && StartsWith(url.value, POSTGRES_SCHEME) ==>
              r == Some(POSTGRESQL_SCHEME + url.value[|POSTGRES_SCHEME|..])
    ensures !(Truthy(url) && StartsWith(url.value, POSTGRES_SCHEME)) ==> r == url
  {
    if Truthy(url) && StartsWith(url.value, POSTGRES_SCHEME) then
      ReplaceFirstAtStart(url.value, POSTGRES_SCHEME, POSTGRESQL_SCHEME);
      Some(ReplaceFirst(url.value, POSTGRES_SCHEME, POSTGRESQL_SCHEME))
    else url
  }

  /** The rewritten scheme no longer matches (`postgresql://` differs from `postgres://`
      at its ninth character), so rewriting twice is rewriting once. */
  lemma RewriteIdempotent(url: Option<string>)
    ensures RewriteDatabaseUrl(RewriteDatabaseUrl(url)) == RewriteDatabaseUrl(url)
  {
    var once := RewriteDatabaseUrl(url);
    if Truthy(url) && StartsWith(url.value, POSTGRES_SCHEME) {
      assert once.value[8] == 'q' != POSTGRES_SCHEME[8];
    }
  }

  /** `SQLALCHEMY_DATABASE_URI`: the rewritten `DATABASE_URL` when it is non-empty,
      else the local SQLite file. */
  function DatabaseUri(env: Env): (r: string)
    ensures r != ""
    ensures !Truthy(Lookup(env, "DATABASE_URL")) ==> r == DEFAULT_DATABASE_URI
    ensures Truthy(Lookup(env, "DATABASE_URL")) && !StartsWith(env["DATABASE_URL"], POSTGRES_SCHEME) ==>
              r == env["DATABASE_URL"]
    ensures Truthy(Lookup(env, "DATABASE_URL")) && StartsWith(env["DATABASE_URL"], POSTGRES_SCHEME) ==>
              StartsWith(r, POSTGRESQL_SCHEME) && r[|POSTGRESQL_SCHEME|..] == env["DATABASE_URL"][|POSTGRES_SCHEME|..]
  {
    var url := RewriteDatabaseUrl(Lookup(env, "DATABASE_URL"));
    if Truthy(url) then url.value else DEFAULT_DATABASE_URI
  }

  /** Feeding the resolved URI back in as `DATABASE_URL` resolves to the same URI. */
  lemma DatabaseUriFixedPoint(env: Env)
    ensures DatabaseUri(env["DATABASE_URL" := DatabaseUri(env)]) == DatabaseUri(env)
  {
    var uri := DatabaseUri(env);
    var env' := env["DATABASE_URL" := uri];
    assert Lookup(env', "DATABASE_URL") == Some(uri);
    if Truthy(Lookup(env, "DATABASE_URL")) && StartsWith(env["DATABASE_URL"], POSTGRES_SCHEME) {
      assert uri[8] == 'q' != POSTGRES_SCHEME[8];
    } else if !Truthy(Lookup(env, "DATABASE_URL")) {
      assert uri[0] == 's' != POSTGRES_SCHEME[0];
    }
  }

  /** The settings the application reads. */
  datatype Settings = Settings(secretKey: string, databaseUri: string, accessToken: string, webhookUrl: string)

  function Load(env: Env): (s: Settings)
    ensures "SECRET_KEY" in env ==> s.secretKey == env["SECRET_KEY"]
    ensures "SECRET_KEY" !in env ==> s.secretKey == DEFAULT_SECRET_KEY
    ensures s.databaseUri == DatabaseUri(env)
    ensures "MERCADOPAGO_ACCESS_TOKEN" !in env ==> s.accessToken == ""
    ensures "MERCADOPAGO_ACCESS_TOKEN" in env ==> s.accessToken == env["MERCADOPAGO_ACCESS_TOKEN"]
    ensures "MERCADOPAGO_WEBHOOK_URL" !in env ==> s.webhookUrl == ""
    ensures "MERCADOPAGO_WEBHOOK_URL" in env ==> s.webhookUrl == env["MERCADOPAGO_WEBHOOK_URL"]
  {
    Settings(
      LookupOr(env, "SECRET_KEY", DEFAULT_SECRET_KEY),
      DatabaseUri(env),
      LookupOr(env, "MERCADOPAGO_ACCESS_TOKEN", ""),
      LookupOr(env, "MERCADOPAGO_WEBHOOK_URL", ""))
  }
}

=== FILE: contribution.dfy ===
/** The `Contribuicao` record: one payment attempt towards one gift, and the
    public dictionary the API returns for it. */
module Contributions {
  import opened Options

  const PENDENTE: string := "pendente"
  const APROVADO: string := "aprovado"
  const CANCELADO: string := "cancelado"
  const REEMBOLSADO: string := "reembolsado"

  const CARTAO: string := "cartao"
  const PIX: string := "pix"

  /** One contribution. The gift reference, payer name, payer email and amount are
      NOT NULL columns, so they are plain values here; `status` is nullable in the
      schema and the newer webhook can store any provider text in it. */
  datatype Contribution = Contribution(
    id: nat,
    giftId: nat,
    name: string,
    email: string,
    amount: real,
    message: string,
    status: Option<string>,
    paymentId: Option<string>,
    paymentMethod: string,
    createdAt: Option<int>)

  /** A contribution as the routes create it: status defaults to `pendente`,
      the payment method defaults to `cartao`, no payment id yet, stamped with the current time. */
  function NewContribution(id: nat, giftId: nat, name: string, email: string, amount: real,
                           message: string, paymentMethod: Option<string>, now: int): (c: Contribution)
    ensures c.id == id && c.giftId == giftId && c.name == name && c.email == email
    ensures c.amount == amount && c.message == message
    ensures c.status == Some(PENDENTE)
    ensures c.paymentId.None?
    ensures paymentMethod.None? ==> c.paymentMethod == CARTAO
    ensures paymentMethod.Some? ==> c.paymentMethod == paymentMethod.value
    ensures c.createdAt == Some(now)
  {
    Contribution(id, giftId, name, email, amount, message, Some(PENDENTE), None, paymentMethod.GetOr(CARTAO), Some(now))
  }

  /** The dictionary `to_dict` produces: no payer email and no payment id. */
  datatype ContributionView = ContributionView(
    id: nat,
    giftId: nat,
    name: string,
    amount: real,
    message: string,
    status: Option<string>,
    paymentMethod: string,
    createdAt: Option<string>)

  /** `isoformat` is a parameter: the model does not fix a timestamp rendering. */
  function ToView(c: Contribution, isoformat: int -> string): (v: ContributionView)
    ensures v.id == c.id && v.giftId == c.giftId && v.name == c.name && v.amount == c.amount
    ensures v.message == c.message && v.status == c.status && v.paymentMethod == c.paymentMethod
    ensures v.createdAt.None? <==> c.createdAt.None?
    ensures c.createdAt.Some? ==> v.createdAt == Some(isoformat(c.createdAt.value))
  {
    ContributionView(c.id, c.giftId, c.name, c.amount, c.message, c.status, c.paymentMethod,
                     if c.createdAt.Some? then Some(isoformat(c.createdAt.value)) else None)
  }

  /** The public view does not depend on the payer's email or on the payment id:
      two contributions that differ only there are indistinguishable through it. */
  lemma ViewHidesEmailAndPaymentId(c: Contribution, email: string, paymentId: Option<string>,
                                   isoformat: int -> string)
    ensures ToView(c.(email := email, paymentId := paymentId), isoformat) == ToView(c, isoformat)
  {
  }
}

=== FILE: contribution_request.dfy ===
/** What the two `criar_contribuicao` routes have in common: the request body,
    the three input checks, the insertion of the pending contribution and the
    card checkout with its compensating delete. */
module ContributionRequests {
  import opened Options
  import opened Gifts
  import opened Contributions
  import opened Ledger
  import opened MercadoPago

  const ERR_INCOMPLETE: string := "Dados incompletos"
  const ERR_NOT_POSITIVE: string := "Valor deve ser maior que zero"
  const ERR_PAYMENT_LINK: string := "Erro ao gerar link de pagamento com Mercado Pago"

  /** The JSON body of `POST /api/contribuir`; `None` marks an absent key. */
  datatype ContributionRequest = ContributionRequest(
    giftId: Option<nat>,
    name: Option<string>,
    email: Option<string>,
    amount: Option<real>,
    message: Option<string>,
    paymentMethod: Option<string>)

  predicate HasRequiredKeys(d: ContributionRequest) {
    d.giftId.Some? && d.name.Some? && d.email.Some? && d.amount.Some?
  }

  /** A request that passed the three checks. */
  predicate Accepted(st: Store, d: ContributionRequest) {
    HasRequiredKeys(d) && d.giftId.value in st.gifts && d.amount.value > 0.0
  }

  /** The JSON replies of the contribution routes. */
  datatype ReplyBody =
    | Failed(error: string)
    | PixRegistered(contributionId: nat)
    | CardRedirect(paymentUrl: string, contributionId: nat, paymentMethod: Option<string>)

  datatype Reply = Reply(code: int, body: ReplyBody)

  datatype Step = Step(store: Store, reply: Reply)

  /** The checks in source order: a missing body or key (400), an unknown gift (404),
      a non-positive amount (400). A request passes exactly when it is `Accepted`. */
  function CheckRequest(st: Store, data: Option<ContributionRequest>): (r: Result<ContributionRequest>)
    ensures r.Ok? <==> data.Some? && Accepted(st, data.value)
    ensures r.Ok? ==> r.value == data.value
    ensures data.None? || !HasRequiredKeys(data.value) ==> r == Err(400, ERR_INCOMPLETE)
    ensures data.Some? && HasRequiredKeys(data.value) && data.value.giftId.value !in st.gifts ==>
              r == Err(404, GIFT_NOT_FOUND)
    ensures (data.Some? && HasRequiredKeys(data.value) && data.value.giftId.value in st.gifts
             && data.value.amount.value <= 0.0) ==> r == Err(400, ERR_NOT_POSITIVE)
  {
    if data.None? || !HasRequiredKeys(data.value) then Err(400, ERR_INCOMPLETE)
    else if data.value.giftId.value !in st.gifts then Err(404, GIFT_NOT_FOUND)
    else if data.value.amount.value <= 0.0 then Err(400, ERR_NOT_POSITIVE)
    else Ok(data.value)
  }

  /** The pending contribution an accepted request creates, under the next free id;
      `mensagem` defaults to the empty string. */
  function PendingFor(st: Store, d: ContributionRequest, paymentMethod: Option<string>, now: int): Contribution
    requires Accepted(st, d)
  {
    NewContribution(st.nextContributionId, st.gifts[d.giftId.value].id, d.name.value, d.email.value,
                    d.amount.value, d.message.GetOr(""), paymentMethod, now)
  }

  /** The preference the gateway returns for the pending contribution. */
  function PreferenceFor(st: Store, d: ContributionRequest, paymentMethod: Option<string>, now: int,
                         baseUrl: string, gateway: Gateway): Option<ResponseData>
    requires Accepted(st, d)
  {
    CreatePreference(PendingFor(st, d, paymentMethod, now), st.gifts[d.giftId.value], baseUrl, gateway)
  }

  /** The card checkout after the pending contribution `id` was committed: without a
      checkout link the contribution is deleted again (500); otherwise the preference id
      is recorded and the link returned. No gift is ever touched. */
  function CardCheckout(st: Store, id: nat, gift: Gift, baseUrl: string, gateway: Gateway,
                        echoMethod: Option<string>): (r: Step)
    requires id in st.contributions
    ensures r.store.gifts == st.gifts
    ensures r.store.nextGiftId == st.nextGiftId && r.store.nextContributionId == st.nextContributionId
    ensures var pref := CreatePreference(st.contributions[id], gift, baseUrl, gateway);
            && (pref.None? ==>
                  r.store.contributions == st.contributions - {id}
                  && r.reply == Reply(500, Failed(ERR_PAYMENT_LINK)))
            && (pref.Some? ==>
                  r.store.contributions == st.contributions[id := st.contributions[id].(paymentId := pref.value.id)]
                  && r.reply == Reply(200, CardRedirect(pref.value.initPoint.value, id, echoMethod)))
  {
    var c := st.contributions[id];
    match CreatePreference(c, gift, baseUrl, gateway)
    case None =>
      Step(st.(contributions := st.contributions - {id}), Reply(500, Failed(ERR_PAYMENT_LINK)))
    case Some(pref) =>
      Step(st.(contributions := st.contributions[id := c.(paymentId := pref.id)]),
           Reply(200, CardRedirect(pref.initPoint.value, id, echoMethod)))
  }
}

=== FILE: gift.dfy ===
/** The `Presente` record (a gift of the registry) and the values derived from it:
    the progress percentage, the completion flag and the dictionary the API returns. */
module Gifts {
  import opened Options

  const DEFAULT_IMAGE_URL: string := "/static/images/gift-default.jpg"

  /** The message every lookup of an unknown gift answers with. */
  const GIFT_NOT_FOUND: string := "Presente não encontrado"

  /** One gift. `raised` is `valor_arrecadado`, the amount contributed so far;
      `total` is `valor_total`, the target. Neither is constrained in sign by the
      schema, and a refund can drive `raised` below zero. */
  datatype Gift = Gift(
    id: nat,
    name: string,
    description: string,
    total: real,
    raised: real,
    active: bool,
    createdAt: int,
    imageUrl: string)

  /** A freshly inserted gift: the column defaults fill the raised amount,
      the active flag, the creation time and (when not given) the image. */
  function NewGift(id: nat, name: string, description: string, total: real,
                   active: Option<bool>, imageUrl: Option<string>, now: int): (g: Gift)
    ensures g.id == id && g.name == name && g.description == description && g.total == total
    ensures g.raised == 0.0 && g.createdAt == now
    ensures active.None? ==> g.active
    ensures active.Some? ==> g.active == active.value
    ensures imageUrl.None? ==> g.imageUrl == DEFAULT_IMAGE_URL
    ensures imageUrl.Some? ==> g.imageUrl == imageUrl.value
    ensures total > 0.0 ==> Progress(g) == 0.0 && !Complete(g)
  {
    Gift(id, name, description, total, 0.0, active.GetOr(true), now, imageUrl.GetOr(DEFAULT_IMAGE_URL))
  }

  function Min(a: real, b: real): real {
    if a <= b then a else b
  }

  /** `esta_completo`: the raised amount has reached the target. */
  predicate Complete(g: Gift)
    ensures g.total > 0.0 ==> (Complete(g) <==> g.raised / g.total >= 1.0)
    ensures g.total <= 0.0 && g.raised >= 0.0 ==> Complete(g)
  {
    g.raised >= g.total
  }

  /** For a positive target, the ratio raised/total reaches one exactly when the gift is complete. */
  lemma RatioReachesOne(raised: real, total: real)
    ensures total > 0.0 ==> (raised / total * 100.0 >= 100.0 <==> raised >= total)
  {
  }

  /** `progresso_porcentagem`: 0 for a zero target, otherwise raised/total as a
      percentage capped at 100. */
  function Progress(g: Gift): (p: real)
    ensures p <= 100.0
    ensures g.total == 0.0 ==> p == 0.0
    ensures g.total > 0.0 && g.raised >= 0.0 ==> 0.0 <= p
    ensures g.total > 0.0 ==> (p == 100.0 <==> Complete(g))
    ensures g.total > 0.0 && g.raised < g.total ==> p * g.total == g.raised * 100.0
    ensures g.total != 0.0 ==> p == 100.0 || p * g.total == g.raised * 100.0
  {
    if g.total == 0.0 then 0.0
    else
      RatioReachesOne(g.raised, g.total);
      Min(100.0, g.raised / g.total * 100.0)
  }

  /** The dictionary `to_dict` produces. */
  datatype GiftView = GiftView(
    id: nat,
    name: string,
    description: string,
    total: real,
    raised: real,
    progress: real,
    complete: bool,
    imageUrl: string)

  function ToView(g: Gift): (v: GiftView)
    ensures v.id == g.id && v.name == g.name && v.description == g.description
    ensures v.total == g.total && v.raised == g.raised && v.imageUrl == g.imageUrl
    ensures v.progress == Progress(g) && v.complete == Complete(g)
  {
    GiftView(g.id, g.name, g.description, g.total, g.raised, Progress(g), Complete(g), g.imageUrl)
  }

  /** The reported percentage and completion flag agree with each other:
      a view of a gift with a positive target shows 100 exactly when it says complete,
      and never shows more than 100. */
  lemma ViewIsConsistent(g: Gift)
    requires g.total > 0.0
    ensures ToView(g).progress <= 100.0
    ensures ToView(g).progress == 100.0 <==> ToView(g).complete
    ensures ToView(g).complete <==> ToView(g).raised >= ToView(g).total
  {
  }
}

=== FILE: ledger.dfy ===
/** The persisted state: the `presentes` and `contribuicoes` tables as two maps
    keyed by id, with the next id each table hands out. Every route is one atomic
    step from a `Store` to a `Store`. */
module Ledger {
  import opened Options
  import opened Gifts
  import opened Contributions

  datatype Store = Store(
    gifts: map<nat, Gift>,
    contributions: map<nat, Contribution>,
    nextGiftId: nat,
    nextContributionId: nat)

  /** The primary-key discipline: every stored record sits under its own id and
      below the table's next id, so a newly handed-out id is always fresh. */
  ghost predicate Valid(st: Store) {
    && (forall id :: id in st.gifts ==> id < st.nextGiftId && st.gifts[id].id == id)
    && (forall id :: id in st.contributions ==> id < st.nextContributionId && st.contributions[id].id == id)
  }

  /** Inserts a pending contribution under the next contribution id. */
  function InsertContribution(st: Store, c: Contribution): (r: (Store, nat))
    requires c.id == st.nextContributionId
    ensures r.1 == st.nextContributionId
    ensures r.0.contributions == st.contributions[r.1 := c]
    ensures r.0.gifts == st.gifts && r.0.nextGiftId == st.nextGiftId
    ensures r.0.nextContributionId == st.nextContributionId + 1
    ensures Valid(st) ==> Valid(r.0) && r.1 !in st.contributions
  {
    (st.(contributions := st.contributions[c.id := c], nextContributionId := st.nextContributionId + 1), c.id)
  }

  /** Adds `delta` (possibly negative) to one gift's raised amount; nothing else changes. */
  function AdjustRaised(st: Store, giftId: nat, delta: real): (r: Store)
    requires giftId in st.gifts
    ensures r.gifts.Keys == st.gifts.Keys
    ensures r.gifts[giftId].raised == st.gifts[giftId].raised + delta
    ensures r.gifts[giftId] == st.gifts[giftId].(raised := r.gifts[giftId].raised)
    ensures forall id :: id in st.gifts && id != giftId ==> r.gifts[id] == st.gifts[id]
    ensures r.contributions == st.contributions
    ensures r.nextGiftId == st.nextGiftId && r.nextContributionId == st.nextContributionId
    ensures Valid(st) ==> Valid(r)
  {
    var g := st.gifts[giftId];
    st.(gifts := st.gifts[giftId := g.(raised := g.raised + delta)])
  }

  /** Deleting a gift (`cascade='all, delete-orphan'`) also deletes every contribution
      that references it; every other gift and contribution is kept as it was. */
  function DeleteGift(st: Store, giftId: nat): (r: Store)
    ensures giftId !in r.gifts
    ensures forall id :: id in r.contributions ==> r.contributions[id].giftId != giftId
    ensures forall id :: id in st.gifts && id != giftId ==> id in r.gifts && r.gifts[id] == st.gifts[id]
    ensures r.gifts.Keys == st.gifts.Keys - {giftId}
    ensures forall id :: id in st.contributions && st.contributions[id].giftId != giftId ==>
              id in r.contributions && r.contributions[id] == st.contributions[id]
    ensures r.contributions.Keys <= st.contributions.Keys
    ensures Valid(st) ==> Valid(r)
  {
    st.(gifts := map id | id in st.gifts && id != giftId :: st.gifts[id],
        contributions := map id | id in st.contributions && st.contributions[id].giftId != giftId
                                :: st.contributions[id])
  }

  /** After the cascade no contribution is orphaned by the deletion: any contribution
      whose gift existed before still has its gift afterwards. */
  lemma DeleteGiftLeavesNoOrphans(st: Store, giftId: nat)
    requires forall id :: id in st.contributions ==> st.contributions[id].giftId in st.gifts
    ensures var r := DeleteGift(st, giftId);
            forall id :: id in r.contributions ==> r.contributions[id].giftId in r.gifts
  {
  }
}

=== FILE: mercado_pago.dfy ===
/** `MercadoPagoService.criar_preferencia_pagamento`: the payment preference sent
    to Mercado Pago for a card contribution, and the normalisation of the reply.
    The SDK call itself is a parameter (`Gateway`). */
module MercadoPago {
  import opened Options
  import opened Strings
  import opened Gifts
  import opened Contributions

  const LOCAL_PREFIX: string := "http://127.0.0.1"
  const WEBHOOK_PATH: string := "/webhook/mercadopago"
  const FALLBACK_NOTIFICATION_URL: string := "https://example.com/webhook/mercadopago"
  const STATEMENT_DESCRIPTOR: string := "PresenteCasamento"
  const CURRENCY: string := "BRL"
  const SUCCESS_PAGE: string := "/obrigado"
  const FAILURE_PAGE: string := "/erro"
  const PENDING_PAGE: string := "/pendente"
  const ID_QUERY: string := "?contribuicao_id="
  const TITLE_PREFIX: string := "Presente: "
  const DESCRIPTION_PREFIX: string := "Contribuição para "

  datatype Item = Item(title: string, description: string, quantity: int, currencyId: string, unitPrice: real)
  datatype Payer = Payer(name: string, email: string)
  datatype BackUrls = BackUrls(success: string, failure: string, pending: string)

  datatype PreferenceRequest = PreferenceRequest(
    items: seq<Item>,
    payer: Payer,
    backUrls: BackUrls,
    notificationUrl: string,
    externalReference: string,
    statementDescriptor: string)

  /** The `response` part of the SDK result: the keys the service reads. */
  datatype ResponseData = ResponseData(
    status: Option<int>,
    id: Option<string>,
    initPoint: Option<string>,
    sandboxInitPoint: Option<string>)

  /** What `sdk.preference().create` did: raised an exception, or returned a result whose
      `response` entry is `None` when the result is empty or has no such key. */
  datatype SdkReply = SdkRaised | SdkReturned(response: Option<ResponseData>)

  type Gateway = PreferenceRequest -> SdkReply

  /** What `processar_webhook` extracts from a notification (that method is not part of
      this model, so its result is an input): a `None` field is an absent key. */
  datatype WebhookResult = WebhookResult(contributionId: Option<nat>, status: Option<string>)

  function ReturnUrl(baseUrl: string, page: string, id: nat): string {
    baseUrl + page + ID_QUERY + NatToString(id)
  }

  function NotificationUrl(baseUrl: string): string {
    if StartsWith(baseUrl, LOCAL_PREFIX) then FALLBACK_NOTIFICATION_URL else baseUrl + WEBHOOK_PATH
  }

  /** The preference data: one item charging exactly the contributed amount in reais,
      return pages that carry the contribution id, and the contribution id as the
      external reference. */
  function BuildRequest(c: Contribution, g: Gift, baseUrl: string): (r: PreferenceRequest)
    ensures |r.items| == 1
    ensures r.items[0].quantity == 1 && r.items[0].currencyId == CURRENCY
    ensures r.items[0].unitPrice == c.amount
    ensures r.items[0].title == TITLE_PREFIX + g.name
    ensures r.items[0].description == DESCRIPTION_PREFIX + g.description
    ensures r.payer == Payer(c.name, c.email)
    ensures AllDigits(r.externalReference) && ParseDigits(r.externalReference) == c.id
    ensures |r.externalReference| > 0 && (|r.externalReference| == 1 || r.externalReference[0] != '0')
    ensures r.backUrls.success == baseUrl + SUCCESS_PAGE + ID_QUERY + r.externalReference
    ensures r.backUrls.failure == baseUrl + FAILURE_PAGE + ID_QUERY + r.externalReference
    ensures r.backUrls.pending == baseUrl + PENDING_PAGE + ID_QUERY + r.externalReference
    ensures StartsWith(baseUrl, LOCAL_PREFIX) ==> r.notificationUrl == FALLBACK_NOTIFICATION_URL
    ensures !StartsWith(baseUrl, LOCAL_PREFIX) ==> r.notificationUrl == baseUrl + WEBHOOK_PATH
    ensures r.statementDescriptor == STATEMENT_DESCRIPTOR
  {
    ParseNatToString(c.id);
    PreferenceRequest(
      [Item(TITLE_PREFIX + g.name, DESCRIPTION_PREFIX + g.description, 1, CURRENCY, c.amount)],
      Payer(c.name, c.email),
      BackUrls(ReturnUrl(baseUrl, SUCCESS_PAGE, c.id),
               ReturnUrl(baseUrl, FAILURE_PAGE, c.id),
               ReturnUrl(baseUrl, PENDING_PAGE, c.id)),
      NotificationUrl(baseUrl),
      NatToString(c.id),
      STATEMENT_DESCRIPTOR)
  }

  /** A return page determines the contribution it was built for. */
  lemma {:induction false} ReturnUrlIdentifiesContribution(baseUrl: string, page: string, m: nat, n: nat)
    requires ReturnUrl(baseUrl, page, m) == ReturnUrl(baseUrl, page, n)
    ensures m == n
  {
    var prefix := baseUrl + page + ID_QUERY;
    assert ReturnUrl(baseUrl, page, m)[|prefix|..] == NatToString(m);
    assert ReturnUrl(baseUrl, page, n)[|prefix|..] == NatToString(n);
    NatToStringInjective(m, n);
  }

  /** Mercado Pago is never told to notify a loopback address: whatever the base URL,
      the notification URL does not start with `http://127.0.0.1`. */
  lemma NotificationUrlNeverLocal(baseUrl: string)
    ensures !StartsWith(NotificationUrl(baseUrl), LOCAL_PREFIX)
  {
    if !StartsWith(baseUrl, LOCAL_PREFIX) {
      var u := baseUrl + WEBHOOK_PATH;
      if |baseUrl| >= |LOCAL_PREFIX| {
        assert u[..|LOCAL_PREFIX|] == baseUrl[..|LOCAL_PREFIX|];
      } else {
        var k := |baseUrl|;
        assert u[k] == '/' && u[k + 1] == 'w';
        assert forall j :: 0 <= j < |LOCAL_PREFIX| - 1 ==> !(LOCAL_PREFIX[j] == '/' && LOCAL_PREFIX[j + 1] == 'w');
      }
    } else {
      assert FALLBACK_NOTIFICATION_URL[4] != LOCAL_PREFIX[4];
    }
  }

  /** The provider reported an error status (`status >= 400`). */
  predicate ProviderError(d: ResponseData) {
    d.status.Some? && d.status.value >= 400
  }

  /** The normalised preference, or `None` on an exception, a missing response, a provider
      error or a response without any checkout link. A sandbox link wins over the
      production link; every other field is passed through. */
  function NormalizeReply(reply: SdkReply): (r: Option<ResponseData>)
    ensures r.Some? ==> r.value.initPoint.Some?
    ensures r.Some? <==>
      && reply.SdkReturned? && reply.response.Some?
      && !ProviderError(reply.response.value)
      && (reply.response.value.sandboxInitPoint.Some? || reply.response.value.initPoint.Some?)
    ensures r.Some? && reply.response.value.sandboxInitPoint.Some? ==>
      r.value.initPoint == reply.response.value.sandboxInitPoint
    ensures r.Some? && reply.response.value.sandboxInitPoint.None? ==>
      r.value.initPoint == reply.response.value.initPoint
    ensures r.Some? ==> r.value.(initPoint := reply.response.value.initPoint) == reply.response.value
  {
    match reply
    case SdkRaised => None
    case SdkReturned(None) => None
    case SdkReturned(Some(d)) =>
      if ProviderError(d) then None
      else if d.sandboxInitPoint.Some? then Some(d.(initPoint := d.sandboxInitPoint))
      else if d.initPoint.Some? then Some(d)
      else None
  }

  /** `criar_preferencia_pagamento`: build the request, hand it to the gateway,
      normalise what comes back. */
  function CreatePreference(c: Contribution, g: Gift, baseUrl: string, gateway: Gateway): (r: Option<ResponseData>)
    ensures r.Some? ==> r.value.initPoint.Some?
    ensures gateway(BuildRequest(c, g, baseUrl)).SdkRaised? ==> r.None?
    ensures var reply := gateway(BuildRequest(c, g, baseUrl));
            r.Some? ==> reply.SdkReturned? && reply.response.Some? && r.value.id == reply.response.value.id
    ensures var reply := gateway(BuildRequest(c, g, baseUrl));
            r.Some? <==>
              && reply.SdkReturned? && reply.response.Some?
              && !ProviderError(reply.response.value)
              && (reply.response.value.sandboxInitPoint.Some? || reply.response.value.initPoint.Some?)
    ensures var reply := gateway(BuildRequest(c, g, baseUrl));
            r.Some? ==> r.value.initPoint == (if reply.response.value.sandboxInitPoint.Some?
                                              then reply.response.value.sandboxInitPoint
                                              else reply.response.value.initPoint)
  {
    NormalizeReply(gateway(BuildRequest(c, g, baseUrl)))
  }
}

=== FILE: migration.dfy ===
/** `migrations/001_add_cpf_telefone.py`: add the taxpayer-number and phone columns to
    the contributions table when they are missing. The database is a schema: a table
    name mapped to its columns in declaration order. */
module Migration {
  const TABLE: string := "contribuicoes"
  const CPF_COLUMN: string := "cpf_contribuinte"
  const PHONE_COLUMN: string := "telefone_contribuinte"

  datatype Column = Column(name: string, sqlType: string)

  /** The database file is absent, or present with these tables. */
  datatype Database = Missing | Present(tables: map<string, seq<Column>>)

  datatype MigrationOutcome = NoDatabase | NoTable | Migrated(added: seq<string>)

  const CPF_DEFINITION: Column := Column(CPF_COLUMN, "VARCHAR(20)")
  const PHONE_DEFINITION: Column := Column(PHONE_COLUMN, "VARCHAR(30)")

  /** `column_exists`: the name is among the table's column names. */
  function ColumnExists(columns: seq<Column>, name: string): (r: bool)
    ensures r <==> exists i :: 0 <= i < |columns| && columns[i].name == name
  {
    if |columns| == 0 then false
    else columns[0].name == name || ColumnExists(columns[1..], name)
  }

  /** `ALTER TABLE ... ADD COLUMN` when the column is missing, recording its name. */
  function AddIfMissing(columns: seq<Column>, changes: seq<string>, column: Column): (r: (seq<Column>, seq<string>))
    ensures ColumnExists(columns, column.name) ==> r == (columns, changes)
    ensures !ColumnExists(columns, column.name) ==> r == (columns + [column], changes + [column.name])
  {
    if ColumnExists(columns, column.name) then (columns, changes)
    else (columns + [column], changes + [column.name])
  }

  /** `main`: without the database file or the table nothing changes; otherwise the
      missing columns among the two are appended, taxpayer number first, and reported. */
  function Migrate(db: Database): (r: (Database, MigrationOutcome))
    ensures db.Missing? ==> r == (db, NoDatabase)
    ensures db.Present? && TABLE !in db.tables ==> r == (db, NoTable)
    ensures db.Present? && TABLE in db.tables ==>
              var before := db.tables[TABLE];
              && r.1.Migrated? && r.0.Present?
              && r.0.tables.Keys == db.tables.Keys
              && (forall t :: t in db.tables && t != TABLE ==> r.0.tables[t] == db.tables[t])
              && |r.0.tables[TABLE]| == |before| + |r.1.added|
              && r.0.tables[TABLE][..|before|] == before
              && r.0.tables[TABLE] == before + (if ColumnExists(before, CPF_COLUMN) then [] else [CPF_DEFINITION])
                                             + (if ColumnExists(before, PHONE_COLUMN) then [] else [PHONE_DEFINITION])
              && ColumnExists(r.0.tables[TABLE], CPF_COLUMN)
              && ColumnExists(r.0.tables[TABLE], PHONE_COLUMN)
              && r.1.added == (if ColumnExists(before, CPF_COLUMN) then [] else [CPF_COLUMN])
                              + (if ColumnExists(before, PHONE_COLUMN) then [] else [PHONE_COLUMN])
  {
    match db
    case Missing => (db, NoDatabase)
    case Present(tables) =>
      if TABLE !in tables then (db, NoTable)
      else
        var (withCpf, changes) := AddIfMissing(tables[TABLE], [], CPF_DEFINITION);
        var (withPhone, changes') := AddIfMissing(withCpf, changes, PHONE_DEFINITION);
        assert ColumnExists(withCpf, CPF_COLUMN) by {
          if !ColumnExists(tables[TABLE], CPF_COLUMN) {
            assert withCpf[|withCpf| - 1].name == CPF_COLUMN;
          }
        }
        assert ColumnExists(withPhone, CPF_COLUMN) by {
          var i :| 0 <= i < |withCpf| && withCpf[i].name == CPF_COLUMN;
          assert withPhone[i] == withCpf[i];
        }
        assert ColumnExists(withPhone, PHONE_COLUMN) by {
          if !ColumnExists(withCpf, PHONE_COLUMN) {
            assert withPhone[|withPhone| - 1].name == PHONE_COLUMN;
          }
        }
        assert ColumnExists(withCpf, PHONE_COLUMN) <==> ColumnExists(tables[TABLE], PHONE_COLUMN) by {
          if ColumnExists(withCpf, PHONE_COLUMN) {
            var i :| 0 <= i < |withCpf| && withCpf[i].name == PHONE_COLUMN;
            if i < |tables[TABLE]| {
              assert tables[TABLE][i] == withCpf[i];
            }
          }
          if ColumnExists(tables[TABLE], PHONE_COLUMN) {
            var i :| 0 <= i < |tables[TABLE]| && tables[TABLE][i].name == PHONE_COLUMN;
            assert withCpf[i] == tables[TABLE][i];
          }
        }
        assert withPhone == tables[TABLE] + (if ColumnExists(tables[TABLE], CPF_COLUMN) then [] else [CPF_DEFINITION])
                                          + (if ColumnExists(tables[TABLE], PHONE_COLUMN) then [] else [PHONE_DEFINITION]);
        (Present(tables[TABLE := withPhone]), Migrated(changes'))
  }

  /** Running the migration on its own result changes nothing and reports no column. */
  lemma MigrateIdempotent(db: Database)
    ensures var (once, first) := Migrate(db);
            var (twice, second) := Migrate(once);
            && twice == once
            && (first.Migrated? ==> second == Migrated([]))
            && (!first.Migrated? ==> second == first)
  {
  }
}

=== FILE: options.dfy ===
/** Optional values and the failure-carrying result used by every step of the model.
    `None` stands for a Python `None` or for a dictionary key that is absent. */
module Options {

  datatype Option<+T> = None | Some(value: T) {

    /** The wrapped value, or `default` when there is none (Python's `d.get(k, default)`). */
    function GetOr(default: T): T {
      match this
      case Some(v) => v
      case None => default
    }
  }

  /** A step that either produces a value or is rejected with an HTTP status and a message. */
  datatype Result<+T> = Ok(value: T) | Err(code: int, error: string)

  /** Python truthiness of an optional string: present and non-empty. */
  predicate Truthy(s: Option<string>) {
    s.Some? && s.value != ""
  }
}

=== FILE: payment_routes.dfy ===
/** `routes/payment_routes.py`: the contribution route that knows PIX, and the
    older Mercado Pago webhook handler. */
module PaymentRoutes {
  import opened Options
  import opened Strings
  import opened Gifts
  import opened Contributions
  import opened Ledger
  import opened MercadoPago
  import opened ContributionRequests

  /** `POST /api/contribuir` (PIX-capable version). Rejected requests change nothing.
      An accepted request inserts a pending contribution; a PIX contribution is then
      approved at once and its amount added to the gift; any other method goes through
      the card checkout, which either records the preference id or deletes the new
      contribution again. */
  function Contribute(st: Store, data: Option<ContributionRequest>, hostUrl: string,
                      gateway: Gateway, now: int): (r: Step)
    requires Valid(st)
    ensures Valid(r.store)
    ensures var check := CheckRequest(st, data);
            check.Err? ==> r.store == st && r.reply == Reply(check.code, Failed(check.error))
    ensures data.Some? && Accepted(st, data.value) && data.value.paymentMethod == Some(PIX) ==>
              var d := data.value;
              var id := st.nextContributionId;
              var gid := d.giftId.value;
              && r.reply == Reply(200, PixRegistered(id))
              && r.store.contributions == st.contributions[id := PendingFor(st, d, d.paymentMethod, now).(status := Some(APROVADO))]
              && r.store.gifts == st.gifts[gid := st.gifts[gid].(raised := st.gifts[gid].raised + d.amount.value)]
    ensures data.Some? && Accepted(st, data.value) && data.value.paymentMethod != Some(PIX) ==>
              var d := data.value;
              var id := st.nextContributionId;
              var pref := PreferenceFor(st, d, d.paymentMethod, now, RStrip(hostUrl, '/'), gateway);
              && r.store.gifts == st.gifts
              && (pref.None? ==> r.store.contributions == st.contributions
                                 && r.reply == Reply(500, Failed(ERR_PAYMENT_LINK)))
              && (pref.Some? ==> r.store.contributions == st.contributions[id := PendingFor(st, d, d.paymentMethod, now).(paymentId := pref.value.id)]
                                 && r.reply == Reply(200, CardRedirect(pref.value.initPoint.value, id, Some(CARTAO))))
  {
    match CheckRequest(st, data)
    case Err(code, error) => Step(st, Reply(code, Failed(error)))
    case Ok(d) =>
      var gid := d.giftId.value;
      var (st1, id) := InsertContribution(st, PendingFor(st, d, d.paymentMethod, now));
      if d.paymentMethod == Some(PIX) then
        var approved := st1.contributions[id].(status := Some(APROVADO));
        var st2 := st1.(contributions := st1.contributions[id := approved]);
        Step(AdjustRaised(st2, gid, d.amount.value), Reply(200, PixRegistered(id)))
      else
        assert st.contributions == st1.contributions - {id};
        CardCheckout(st1, id, st.gifts[gid], RStrip(hostUrl, '/'), gateway, Some(CARTAO))
  }

  /** A Python number as the route sees it: `valor_arrecadado` is a `Numeric` column and
      loads as a `Decimal`, while `float(data['valor'])` is a `float`. */
  datatype PyNumber = PyDecimal(value: real) | PyFloat(value: real)

  /** What `str(e)` gives for the `TypeError` of adding a `float` to a `Decimal` in place. */
  const ERR_DECIMAL_PLUS_FLOAT: string := "unsupported operand type(s) for +=: 'decimal.Decimal' and 'float'"

  /** Python's `a += b` on two numbers: `Decimal` and `float` do not mix, and the
      operation raises (`None` here); numbers of one kind add up. */
  function PyAdd(a: PyNumber, b: PyNumber): (r: Option<PyNumber>)
    ensures r.Some? <==> a.PyDecimal? == b.PyDecimal?
    ensures r.Some? ==> r.value.value == a.value + b.value && r.value.PyDecimal? == a.PyDecimal?
  {
    match (a, b)
    case (PyDecimal(x), PyDecimal(y)) => Some(PyDecimal(x + y))
    case (PyFloat(x), PyFloat(y)) => Some(PyFloat(x + y))
    case _ => None
  }

  /** The PIX branch after the pending contribution `id` was committed: a raising sum
      rolls the session back and answers 500 with the exception text; a sum approves
      the contribution and stores the new raised amount. */
  function PixCommit(st1: Store, id: nat, gid: nat, sum: Option<PyNumber>): (r: Step)
    requires id in st1.contributions && gid in st1.gifts
    ensures sum.None? ==> r.store == st1 && r.reply.code == 500
    ensures sum.Some? ==>
              && r.reply == Reply(200, PixRegistered(id))
              && r.store.contributions == st1.contributions[id := st1.contributions[id].(status := Some(APROVADO))]
              && r.store.gifts.Keys == st1.gifts.Keys
              && r.store.gifts[gid] == st1.gifts[gid].(raised := sum.value.value)
              && (forall k :: k in st1.gifts && k != gid ==> r.store.gifts[k] == st1.gifts[k])
  {
    match sum
    case None => Step(st1, Reply(500, Failed(ERR_DECIMAL_PLUS_FLOAT)))
    case Some(total) =>
      var approved := st1.contributions[id].(status := Some(APROVADO));
      Step(st1.(contributions := st1.contributions[id := approved],
                gifts := st1.gifts[gid := st1.gifts[gid].(raised := total.value)]),
           Reply(200, PixRegistered(id)))
  }

  /** `POST /api/contribuir` as the code stands: the PIX branch adds the `float` amount
      to the `Decimal` raised amount, which raises, so the request ends in the generic
      500 handler with the contribution committed as `pendente` and the gift untouched.
      Rejections and the card branch are those of `Contribute`. */
  function ContributeAsWritten(st: Store, data: Option<ContributionRequest>, hostUrl: string,
                               gateway: Gateway, now: int): (r: Step)
    requires Valid(st)
    ensures Valid(r.store)
    ensures var check := CheckRequest(st, data);
            check.Err? ==> r.store == st && r.reply == Reply(check.code, Failed(check.error))
    ensures data.Some? && Accepted(st, data.value) && data.value.paymentMethod == Some(PIX) ==>
              var d := data.value;
              && r.reply == Reply(500, Failed(ERR_DECIMAL_PLUS_FLOAT))
              && r.store.gifts == st.gifts
              && r.store.contributions == st.contributions[st.nextContributionId := PendingFor(st, d, d.paymentMethod, now)]
    ensures data.Some? && Accepted(st, data.value) && data.value.paymentMethod != Some(PIX) ==>
              r == Contribute(st, data, hostUrl, gateway, now)
  {
    match CheckRequest(st, data)
    case Err(code, error) => Step(st, Reply(code, Failed(error)))
    case Ok(d) =>
      if d.paymentMethod == Some(PIX) then
        var gid := d.giftId.value;
        var (st1, id) := InsertContribution(st, PendingFor(st, d, d.paymentMethod, now));
        PixCommit(st1, id, gid, PyAdd(PyDecimal(st1.gifts[gid].raised), PyFloat(d.amount.value)))
      else
        Contribute(st, data, hostUrl, gateway, now)
  }

  /** The discrepancy: for every accepted PIX request the route as written leaves the
      contribution pending, the gift unchanged and answers 500, while the intended
      route approves it, raises the gift by the amount and answers 200. */
  lemma PixAsWrittenNeverApproves(st: Store, d: ContributionRequest, hostUrl: string, gateway: Gateway, now: int)
    requires Valid(st) && Accepted(st, d) && d.paymentMethod == Some(PIX)
    ensures var written := ContributeAsWritten(st, Some(d), hostUrl, gateway, now);
            var intended := Contribute(st, Some(d), hostUrl, gateway, now);
            var id := st.nextContributionId;
            var gid := d.giftId.value;
            && written.reply.code == 500 && intended.reply.code == 200
            && written.store.contributions[id].status == Some(PENDENTE)
            && intended.store.contributions[id].status == Some(APROVADO)
            && written.store.gifts[gid].raised == st.gifts[gid].raised
            && intended.store.gifts[gid].raised == st.gifts[gid].raised + d.amount.value
  {
  }

  /** The reply of the older webhook: `{'success': ...}` with its status code. */
  datatype LegacyReply = LegacyReply(code: int, success: bool)

  /** `webhook_mercadopago`, the older handler. `approved` marks the contribution
      `aprovado` and adds its amount to the gift, whatever the previous status;
      `cancelled`/`rejected` mark it `cancelado`; anything else changes nothing.
      A missing `contribuicao_id` or `status` key, or a contribution whose gift is gone,
      raises inside the handler: 500 and nothing is committed. */
  function LegacyWebhook(st: Store, result: Option<WebhookResult>): (r: (Store, LegacyReply))
    ensures Valid(st) ==> Valid(r.0)
    ensures r.1.success <==> r.1.code == 200
    ensures r.0.contributions.Keys == st.contributions.Keys && r.0.gifts.Keys == st.gifts.Keys
    ensures result.None? ==> r == (st, LegacyReply(200, true))
    ensures result.Some? && result.value.contributionId.None? ==> r == (st, LegacyReply(500, false))
    ensures result.Some? && result.value.contributionId.Some? && result.value.contributionId.value !in st.contributions ==>
              r == (st, LegacyReply(200, true))
    ensures result.Some? && result.value.contributionId.Some? && result.value.contributionId.value in st.contributions ==>
              var id := result.value.contributionId.value;
              var c := st.contributions[id];
              var status := result.value.status;
              && (status == Some("approved") && c.giftId in st.gifts ==>
                    && r.1 == LegacyReply(200, true)
                    && r.0.contributions == st.contributions[id := c.(status := Some(APROVADO))]
                    && r.0.gifts == st.gifts[c.giftId := st.gifts[c.giftId].(raised := st.gifts[c.giftId].raised + c.amount)])
              && (status == Some("approved") && c.giftId !in st.gifts ==> r == (st, LegacyReply(500, false)))
              && (status == Some("cancelled") || status == Some("rejected") ==>
                    && r.1 == LegacyReply(200, true)
                    && r.0.contributions == st.contributions[id := c.(status := Some(CANCELADO))]
                    && r.0.gifts == st.gifts)
              && (status.None? ==> r == (st, LegacyReply(500, false)))
              && (status.Some? && status.value !in {"approved", "cancelled", "rejected"} ==> r == (st, LegacyReply(200, true)))
  {
    match result
    case None => (st, LegacyReply(200, true))
    case Some(res) =>
      if res.contributionId.None? then (st, LegacyReply(500, false))
      else if res.contributionId.value !in st.contributions then (st, LegacyReply(200, true))
      else
        var id := res.contributionId.value;
        var c := st.contributions[id];
        match res.status
        case None => (st, LegacyReply(500, false))
        case Some(status) =>
          if status == "approved" then
            if c.giftId !in st.gifts then (st, LegacyReply(500, false))
            else
              var st1 := st.(contributions := st.contributions[id := c.(status := Some(APROVADO))]);
              (AdjustRaised(st1, c.giftId, c.amount), LegacyReply(200, true))
          else if status == "cancelled" || status == "rejected" then
            (st.(contributions := st.contributions[id := c.(status := Some(CANCELADO))]), LegacyReply(200, true))
          else (st, LegacyReply(200, true))
  }

  /** Re-delivering `approved` to the older handler counts the amount a second time:
      two deliveries raise the gift by twice the contribution. */
  lemma LegacyApprovedTwiceCountsTwice(st: Store, id: nat)
    requires id in st.contributions && st.contributions[id].giftId in st.gifts
    ensures var ev := Some(WebhookResult(Some(id), Some("approved")));
            var once := LegacyWebhook(st, ev).0;
            var twice := LegacyWebhook(once, ev).0;
            var gid := st.contributions[id].giftId;
            twice.gifts[gid].raised == st.gifts[gid].raised + 2.0 * st.contributions[id].amount
  {
  }
}

=== FILE: present_routes.dfy ===
/** `routes/present_routes.py`: listing the active gifts, reading one gift, and the
    card-only contribution route. */
module PresentRoutes {
  import opened Options
  import opened Strings
  import opened Gifts
  import opened Contributions
  import opened Ledger
  import opened MercadoPago
  import opened ContributionRequests

  /** The ids of the active gifts in `[from, bound)`, in increasing order. */
  function ActiveIds(gifts: map<nat, Gift>, from: nat, bound: nat): (ids: seq<nat>)
    ensures forall i :: 0 <= i < |ids| ==> from <= ids[i] < bound && ids[i] in gifts && gifts[ids[i]].active
    ensures forall id :: from <= id < bound && id in gifts && gifts[id].active ==> id in ids
    ensures forall i, j :: 0 <= i < j < |ids| ==> ids[i] < ids[j]
    decreases bound - from
  {
    if from >= bound then []
    else if from in gifts && gifts[from].active then [from] + ActiveIds(gifts, from + 1, bound)
    else ActiveIds(gifts, from + 1, bound)
  }

  /** The views of the gifts under `ids`, in the same order. */
  function Views(gifts: map<nat, Gift>, ids: seq<nat>): (r: seq<GiftView>)
    requires forall i :: 0 <= i < |ids| ==> ids[i] in gifts
    ensures |r| == |ids|
    ensures forall i :: 0 <= i < |r| ==> r[i] == Gifts.ToView(gifts[ids[i]])
  {
    if ids == [] then [] else [Gifts.ToView(gifts[ids[0]])] + Views(gifts, ids[1..])
  }

  /** `listar_presentes`: the views of the active gifts. The query has no `ORDER BY`;
      the model lists them in id order. */
  function ListPresents(st: Store): (r: seq<GiftView>)
    ensures forall i :: 0 <= i < |r| ==>
              exists id :: id in st.gifts && st.gifts[id].active && r[i] == Gifts.ToView(st.gifts[id])
  {
    var ids := ActiveIds(st.gifts, 0, st.nextGiftId);
    var r := Views(st.gifts, ids);
    assert forall i :: 0 <= i < |r| ==>
      ids[i] in st.gifts && st.gifts[ids[i]].active && r[i] == Gifts.ToView(st.gifts[ids[i]]);
    r
  }

  /** The listing is the view of each active id, position by position. */
  lemma ListingFollowsIds(st: Store)
    ensures var ids := ActiveIds(st.gifts, 0, st.nextGiftId);
            && |ListPresents(st)| == |ids|
            && forall i :: 0 <= i < |ids| ==> ListPresents(st)[i] == Gifts.ToView(st.gifts[ids[i]])
  {
  }

  /** With the primary-key discipline, every active gift is listed, and no gift twice:
      the listing's ids strictly increase. */
  lemma ListPresentsComplete(st: Store)
    requires Valid(st)
    ensures forall id :: id in st.gifts && st.gifts[id].active ==>
              exists i :: 0 <= i < |ListPresents(st)| && ListPresents(st)[i] == Gifts.ToView(st.gifts[id])
    ensures forall i, j :: 0 <= i < j < |ListPresents(st)| ==> ListPresents(st)[i].id < ListPresents(st)[j].id
  {
    var ids := ActiveIds(st.gifts, 0, st.nextGiftId);
    var r := ListPresents(st);
    ListingFollowsIds(st);
    forall id | id in st.gifts && st.gifts[id].active
      ensures exists i :: 0 <= i < |r| && r[i] == Gifts.ToView(st.gifts[id])
    {
      assert id < st.nextGiftId;
      var i :| 0 <= i < |ids| && ids[i] == id;
      assert r[i] == Gifts.ToView(st.gifts[id]);
    }
    forall i, j | 0 <= i < j < |r| ensures r[i].id < r[j].id {
      assert r[i].id == ids[i] && r[j].id == ids[j];
    }
  }

  /** An inactive gift never shows up in the listing. */
  lemma InactiveNotListed(st: Store, id: nat)
    requires Valid(st) && id in st.gifts && !st.gifts[id].active
    ensures forall i :: 0 <= i < |ListPresents(st)| ==> ListPresents(st)[i].id != id
  {
  }

  /** `obter_presente`: the gift's view, or 404 for an unknown id. The active flag is
      not consulted, so a deactivated gift can still be read by id. */
  function GetPresent(st: Store, id: nat): (r: (int, Option<GiftView>))
    ensures r.0 == 200 <==> id in st.gifts
    ensures r.0 == 200 || r.0 == 404
    ensures r.1.Some? <==> r.0 == 200
    ensures r.1.Some? ==> r.1.value == Gifts.ToView(st.gifts[id]) && r.1.value.progress <= 100.0
  {
    if id in st.gifts then (200, Some(Gifts.ToView(st.gifts[id]))) else (404, None)
  }

  /** `criar_contribuicao` (card-only version). The same three rejections leave the
      store unchanged; an accepted request always creates a pending `cartao`
      contribution, whatever `metodo_pagamento` says, and then runs the card checkout.
      No gift's raised amount ever changes. */
  function Contribute(st: Store, data: Option<ContributionRequest>, hostUrl: string,
                      gateway: Gateway, now: int): (r: Step)
    requires Valid(st)
    ensures Valid(r.store)
    ensures r.store.gifts == st.gifts
    ensures var check := CheckRequest(st, data);
            check.Err? ==> r.store == st && r.reply == Reply(check.code, Failed(check.error))
    ensures data.Some? && Accepted(st, data.value) ==>
              var d := data.value;
              var id := st.nextContributionId;
              var c := PendingFor(st, d, None, now);
              var pref := PreferenceFor(st, d, None, now, RStrip(hostUrl, '/'), gateway);
              && c.status == Some(PENDENTE) && c.paymentMethod == CARTAO
              && (pref.None? ==> r.store.contributions == st.contributions
                                 && r.reply == Reply(500, Failed(ERR_PAYMENT_LINK)))
              && (pref.Some? ==> r.store.contributions == st.contributions[id := c.(paymentId := pref.value.id)]
                                 && r.reply == Reply(200, CardRedirect(pref.value.initPoint.value, id, None)))
  {
    match CheckRequest(st, data)
    case Err(code, error) => Step(st, Reply(code, Failed(error)))
    case Ok(d) =>
      var (st1, id) := InsertContribution(st, PendingFor(st, d, None, now));
      assert st.contributions == st1.contributions - {id};
      CardCheckout(st1, id, st.gifts[d.giftId.value], RStrip(hostUrl, '/'), gateway, None)
  }
}

=== FILE: production.dfy ===
/** `production.py`: the recursive input sanitiser, the `/healthz` status aggregation and
    the JSON-request guard. `bleach.clean` is the parameter `clean`; the probes' results
    are inputs. */
module Production {
  import opened Options

  /** A decoded JSON value; an object is its key/value pairs in order, keys distinct. */
  datatype Json =
    | JNull
    | JBool(b: bool)
    | JNum(n: real)
    | JStr(s: string)
    | JList(items: seq<Json>)
    | JObject(fields: seq<Field>)

  datatype Field = Field(key: string, value: Json)

  /** `sanitize_input`: strings are cleaned, objects and lists are sanitised member by
      member, every other value is returned as it is. */
  function Sanitize(j: Json, clean: string -> string): (r: Json)
    ensures j.JStr? ==> r == JStr(clean(j.s))
    ensures j.JNull? || j.JBool? || j.JNum? ==> r == j
    ensures j.JList? ==> r.JList? && |r.items| == |j.items|
    ensures j.JObject? ==> r.JObject? && |r.fields| == |j.fields|
                           && forall i :: 0 <= i < |j.fields| ==> r.fields[i].key == j.fields[i].key
    decreases j
  {
    match j
    case JStr(s) => JStr(clean(s))
    case JList(items) =>
      JList(seq(|items|, i requires 0 <= i < |items| => Sanitize(items[i], clean)))
    case JObject(fields) =>
      JObject(seq(|fields|, i requires 0 <= i < |fields| =>
        Field(fields[i].key, Sanitize(fields[i].value, clean))))
    case _ => j
  }

  /** Lists keep their order and objects their keys, with each member sanitised. */
  lemma SanitizeMembers(j: Json, clean: string -> string)
    ensures j.JList? ==> forall i :: 0 <= i < |j.items| ==> Sanitize(j, clean).items[i] == Sanitize(j.items[i], clean)
    ensures j.JObject? ==> forall i :: 0 <= i < |j.fields| ==>
              Sanitize(j, clean).fields[i] == Field(j.fields[i].key, Sanitize(j.fields[i].value, clean))
  {
  }

  /** Two values with the same structure: same constructors, lengths and keys, with
      only the strings free to differ. */
  predicate SameShape(a: Json, b: Json)
    decreases a
  {
    match a
    case JNull => b.JNull?
    case JBool(x) => b == a
    case JNum(x) => b == a
    case JStr(_) => b.JStr?
    case JList(items) =>
      b.JList? && |b.items| == |items|
      && forall i :: 0 <= i < |items| ==> SameShape(items[i], b.items[i])
    case JObject(fields) =>
      b.JObject? && |b.fields| == |fields|
      && forall i :: 0 <= i < |fields| ==>
           fields[i].key == b.fields[i].key && SameShape(fields[i].value, b.fields[i].value)
  }

  /** Sanitising never changes a value's structure, only its strings. */
  lemma {:induction false} SanitizeKeepsShape(j: Json, clean: string -> string)
    ensures SameShape(j, Sanitize(j, clean))
    decreases j
  {
    match j
    case JList(items) =>
      forall i | 0 <= i < |items| ensures SameShape(items[i], Sanitize(j, clean).items[i]) {
        SanitizeKeepsShape(items[i], clean);
      }
    case JObject(fields) =>
      forall i | 0 <= i < |fields|
        ensures SameShape(fields[i].value, Sanitize(j, clean).fields[i].value)
      {
        SanitizeKeepsShape(fields[i].value, clean);
      }
    case _ =>
  }

  /** When cleaning leaves a string alone, sanitising leaves the whole value alone. */
  lemma {:induction false} SanitizeIdentity(j: Json, clean: string -> string)
    requires forall s :: clean(s) == s
    ensures Sanitize(j, clean) == j
    decreases j
  {
    match j
    case JList(items) =>
      forall i | 0 <= i < |items| ensures Sanitize(j, clean).items[i] == items[i] {
        SanitizeIdentity(items[i], clean);
      }
    case JObject(fields) =>
      forall i | 0 <= i < |fields| ensures Sanitize(j, clean).fields[i] == fields[i] {
        SanitizeIdentity(fields[i].value, clean);
      }
    case _ =>
  }

  /** With an idempotent cleaner, sanitising an already sanitised value changes nothing. */
  lemma {:induction false} SanitizeIdempotent(j: Json, clean: string -> string)
    requires forall s :: clean(clean(s)) == clean(s)
    ensures Sanitize(Sanitize(j, clean), clean) == Sanitize(j, clean)
    decreases j
  {
    var once := Sanitize(j, clean);
    match j
    case JList(items) =>
      forall i | 0 <= i < |items| ensures Sanitize(once, clean).items[i] == once.items[i] {
        SanitizeIdempotent(items[i], clean);
      }
    case JObject(fields) =>
      forall i | 0 <= i < |fields| ensures Sanitize(once, clean).fields[i] == once.fields[i] {
        SanitizeIdempotent(fields[i].value, clean);
      }
    case _ =>
  }

  /** One `/healthz` probe and the status it reported. */
  datatype Check = Check(name: string, status: string)

  datatype Health = Health(code: int, healthy: bool, checks: seq<Check>)

  /** The four probes in the order the handler runs them: the database answers,
      `testar_credenciais` returned a truthy value without raising, the memory and the
      uptime reading succeeded. */
  function Probes(databaseUp: bool, credentials: Option<bool>, memoryRead: bool, uptimeRead: bool): (checks: seq<Check>)
    ensures |checks| == 4
    ensures checks[0].name == "database" && (checks[0].status == "ok" <==> databaseUp)
    ensures checks[1].name == "mercadopago" && (checks[1].status == "ok" <==> credentials == Some(true))
    ensures checks[2].name == "memory" && (checks[2].status == "ok" <==> memoryRead)
    ensures checks[3].name == "uptime" && (checks[3].status == "ok" <==> uptimeRead)
  {
    [Check("database", if databaseUp then "ok" else "error"),
     Check("mercadopago", if credentials == Some(true) then "ok" else "error"),
     Check("memory", if memoryRead then "ok" else "error"),
     Check("uptime", if uptimeRead then "ok" else "error")]
  }

  /** Whether every probe in `checks[from..]` says `ok`, looked at one by one. */
  function AllOkFrom(checks: seq<Check>, from: nat): (r: bool)
    requires from <= |checks|
    decreases |checks| - from
  {
    from == |checks| || (checks[from].status == "ok" && AllOkFrom(checks, from + 1))
  }

  /** The aggregation: 200 and healthy when every probe is `ok`, else 503 and unhealthy. */
  function Healthcheck(checks: seq<Check>): (h: Health)
    ensures h.code == 200 || h.code == 503
    ensures h.healthy <==> h.code == 200
    ensures h.checks == checks
  {
    var code := if AllOkFrom(checks, 0) then 200 else 503;
    Health(code, code == 200, checks)
  }

  lemma {:induction false} AllOkFromMeansEvery(checks: seq<Check>, from: nat)
    requires from <= |checks|
    ensures AllOkFrom(checks, from) <==> forall i :: from <= i < |checks| ==> checks[i].status == "ok"
    decreases |checks| - from
  {
    if from < |checks| {
      AllOkFromMeansEvery(checks, from + 1);
    }
  }

  /** The reply is 200 exactly when every probe said `ok`. */
  lemma HealthyIffAllProbesSucceed(checks: seq<Check>)
    ensures Healthcheck(checks).code == 200 <==> forall i :: 0 <= i < |checks| ==> checks[i].status == "ok"
  {
    AllOkFromMeansEvery(checks, 0);
  }

  /** For the four probes of the handler: healthy exactly when all four succeeded. */
  lemma EndpointHealthy(databaseUp: bool, credentials: Option<bool>, memoryRead: bool, uptimeRead: bool)
    ensures (Healthcheck(Probes(databaseUp, credentials, memoryRead, uptimeRead)).healthy
             <==> databaseUp && credentials == Some(true) && memoryRead && uptimeRead)
  {
    var checks := Probes(databaseUp, credentials, memoryRead, uptimeRead);
    HealthyIffAllProbesSucceed(checks);
    if databaseUp && credentials == Some(true) && memoryRead && uptimeRead {
      assert forall i :: 0 <= i < |checks| ==> checks[i].status == "ok" by {
        forall i | 0 <= i < |checks| ensures checks[i].status == "ok" {
          assert i == 0 || i == 1 || i == 2 || i == 3;
        }
      }
    }
  }

  const ERR_CONTENT_TYPE: string := "Content-Type must be application/json"
  const ERR_INVALID_JSON: string := "Invalid JSON format"

  /** What a guarded handler answers: a rejection of the guard, or the handler's reply. */
  datatype Guarded<R> = Rejected(code: int, error: string) | Handled(reply: R)

  /** `validate_request_json`: a non-JSON request is refused (400) before the handler is
      called; a body that does not parse, or a handler that raises (`None`), gives 400
      "Invalid JSON format"; otherwise the handler's reply on the sanitised body. */
  function ValidateRequestJson<R>(isJson: bool, body: Option<Json>, clean: string -> string,
                                  handler: Json -> Option<R>): (r: Guarded<R>)
    ensures !isJson ==> r == Rejected(400, ERR_CONTENT_TYPE)
    ensures isJson && body.None? ==> r == Rejected(400, ERR_INVALID_JSON)
    ensures isJson && body.Some? ==>
              var seen := Sanitize(body.value, clean);
              && (handler(seen).None? ==> r == Rejected(400, ERR_INVALID_JSON))
              && (handler(seen).Some? ==> r == Handled(handler(seen).value))
    ensures r.Rejected? ==> r.code == 400
  {
    if !isJson then Rejected(400, ERR_CONTENT_TYPE)
    else
      match body
      case None => Rejected(400, ERR_INVALID_JSON)
      case Some(data) =>
        match handler(Sanitize(data, clean))
        case None => Rejected(400, ERR_INVALID_JSON)
        case Some(reply) => Handled(reply)
  }

  /** The handler's answer depends only on the body, and a non-JSON request's answer not
      even on that: two handlers that differ are indistinguishable behind the guard. */
  lemma NonJsonNeverReachesHandler<R>(body: Option<Json>, clean: string -> string,
                                      h1: Json -> Option<R>, h2: Json -> Option<R>)
    ensures ValidateRequestJson(false, body, clean, h1) == ValidateRequestJson(false, body, clean, h2)
  {
  }
}

=== FILE: production_checks.dfy ===
/** `check_production.py`: the deployment checklist. Each check is a predicate over the
    loaded settings and the environment; the Mercado Pago probe's reply is an input. */
module ProductionChecks {
  import opened Options
  import opened Strings
  import opened Config
  import opened MercadoPago

  const MIN_SECRET_LENGTH: nat := 32
  const TEST_TOKEN_PREFIX: string := "TEST-"
  const PRODUCTION_TOKEN_PREFIX: string := "APP_USR-"

  /** `verificar_secret_key`. */
  function SecretKeyOk(key: string): (ok: bool)
    ensures ok <==> key != "" && key != DEFAULT_SECRET_KEY && |key| >= MIN_SECRET_LENGTH
  {
    if key == "" || key == DEFAULT_SECRET_KEY then false
    else if |key| < MIN_SECRET_LENGTH then false
    else true
  }

  /** The default key is long enough to pass the length test, so only the explicit
      comparison keeps an unconfigured deployment from passing. */
  lemma DefaultSecretOnlyCaughtByComparison()
    ensures |DEFAULT_SECRET_KEY| >= MIN_SECRET_LENGTH
    ensures !SecretKeyOk(Load(map[]).secretKey)
  {
  }

  /** `verificar_database`: an empty URI fails; one mentioning `postgresql`, or else
      `sqlite`, passes; anything else fails. */
  function DatabaseOk(uri: string): (ok: bool)
    ensures uri == "" ==> !ok
    ensures Contains(uri, "postgresql") ==> ok
    ensures !Contains(uri, "postgresql") ==> (ok <==> Contains(uri, "sqlite"))
  {
    if uri == "" then false
    else if Contains(uri, "postgresql") then true
    else Contains(uri, "sqlite")
  }

  /** The URIs the configuration itself produces pass: the SQLite fallback and every
      rewritten `postgres://` URL. */
  lemma ConfiguredDatabasesPass(env: Env)
    requires !Truthy(Lookup(env, "DATABASE_URL")) || StartsWith(env["DATABASE_URL"], POSTGRES_SCHEME)
    ensures DatabaseOk(Load(env).databaseUri)
  {
  }

  /** The token tests of `verificar_configuracao_mp`, run before any network call:
      empty, a `TEST-` token, or one without the `APP_USR-` prefix all fail. */
  function TokenPrecheck(token: string): (ok: bool)
    ensures token == "" || StartsWith(token, TEST_TOKEN_PREFIX) ==> !ok
    ensures !StartsWith(token, PRODUCTION_TOKEN_PREFIX) ==> !ok
  {
    if token == "" then false
    else if StartsWith(token, TEST_TOKEN_PREFIX) then false
    else StartsWith(token, PRODUCTION_TOKEN_PREFIX)
  }

  /** The first two token tests are implied by the third: the precheck passes exactly
      for tokens starting with `APP_USR-`. */
  lemma PrecheckIsProductionPrefix(token: string)
    ensures TokenPrecheck(token) <==> StartsWith(token, PRODUCTION_TOKEN_PREFIX)
  {
    if StartsWith(token, PRODUCTION_TOKEN_PREFIX) {
      assert token[0] == 'A' != TEST_TOKEN_PREFIX[0];
    }
  }

  /** `verificar_configuracao_mp`: the precheck, then the probe preference must come
      back with a response holding an `init_point`; an exception fails. */
  function MercadoPagoOk(token: string, probe: SdkReply): (ok: bool)
    ensures !TokenPrecheck(token) ==> !ok
    ensures TokenPrecheck(token) ==>
              (ok <==> probe.SdkReturned? && probe.response.Some? && probe.response.value.initPoint.Some?)
  {
    if !TokenPrecheck(token) then false
    else
      match probe
      case SdkRaised => false
      case SdkReturned(None) => false
      case SdkReturned(Some(data)) => data.initPoint.Some?
  }

  /** `verificar_urls`: on Render a non-empty `SITE_URL` is required. */
  function UrlsOk(env: Env): (ok: bool)
    ensures !ok <==> Truthy(Lookup(env, "RENDER")) && !Truthy(Lookup(env, "SITE_URL"))
  {
    if Truthy(Lookup(env, "RENDER")) then LookupOr(env, "SITE_URL", "") != "" else true
  }

  /** `verificar_ambiente` only reports where it runs. */
  function EnvironmentOk(env: Env): (ok: bool)
    ensures ok
  {
    // Both branches only print where the application runs, then pass.
    if Truthy(Lookup(env, "RENDER")) then true else true
  }

  /** The final `all(...)` over the secret, database, Mercado Pago and URL checks;
      the environment check is not part of it. */
  function Verdict(env: Env, probe: SdkReply): (ok: bool)
    ensures ok <==> SecretKeyOk(Load(env).secretKey) && DatabaseOk(Load(env).databaseUri)
                    && MercadoPagoOk(Load(env).accessToken, probe) && UrlsOk(env)
  {
    var settings := Load(env);
    var checks := [SecretKeyOk(settings.secretKey), DatabaseOk(settings.databaseUri),
                   MercadoPagoOk(settings.accessToken, probe), UrlsOk(env)];
    var ok := forall i :: 0 <= i < |checks| ==> checks[i];
    assert ok ==> checks[0] && checks[1] && checks[2] && checks[3];
    ok
  }

  /** An environment that sets nothing fails twice over, whatever the probe says:
      the default secret key and the empty access token. */
  lemma EmptyEnvironmentFails(probe: SdkReply)
    ensures !SecretKeyOk(Load(map[]).secretKey)
    ensures !MercadoPagoOk(Load(map[]).accessToken, probe)
    ensures !Verdict(map[], probe)
  {
  }

  /** A deployment passes only with a production token, whatever else is configured. */
  lemma VerdictNeedsProductionToken(env: Env, probe: SdkReply)
    requires Verdict(env, probe)
    ensures StartsWith(Load(env).accessToken, PRODUCTION_TOKEN_PREFIX)
    ensures |Load(env).secretKey| >= MIN_SECRET_LENGTH
  {
  }
}

=== FILE: reconciliation.dfy ===
/** How the card checkout, the duplicate lookup and the newer webhook fit together:
    a successful checkout leaves a contribution the duplicate lookup recognises, and
    the first `approved` notification for it adds its amount exactly once. */
module Reconciliation {
  import opened Options
  import opened Strings
  import opened Gifts
  import opened Contributions
  import opened Ledger
  import opened MercadoPago
  import opened ContributionRequests
  import opened Validation
  import PaymentRoutes
  import Webhook

  /** A card request that reached the gateway: either the preference id is now on
      record, so `verificar_duplicidade` finds it, or nothing was recorded at all. */
  lemma CardCheckoutIsRecorded(st: Store, d: ContributionRequest, hostUrl: string, gateway: Gateway, now: int)
    requires Valid(st) && Accepted(st, d) && d.paymentMethod != Some(PIX)
    ensures var r := PaymentRoutes.Contribute(st, Some(d), hostUrl, gateway, now);
            var pref := PreferenceFor(st, d, d.paymentMethod, now, RStrip(hostUrl, '/'), gateway);
            && (pref.Some? ==> IsDuplicate(r.store, pref.value.id) && r.reply.code == 200
                               && r.store.contributions[st.nextContributionId].paymentId == pref.value.id)
            && (pref.None? ==> (forall p :: IsDuplicate(r.store, p) == IsDuplicate(st, p)) && r.reply.code == 500)
  {
    var r := PaymentRoutes.Contribute(st, Some(d), hostUrl, gateway, now);
    var pref := PreferenceFor(st, d, d.paymentMethod, now, RStrip(hostUrl, '/'), gateway);
    if pref.Some? {
      var id := st.nextContributionId;
      assert id in r.store.contributions && r.store.contributions[id].paymentId == pref.value.id;
    }
  }

  /** After a successful card checkout, the first `approved` notification from the newer
      webhook approves the contribution and adds its amount to the gift exactly once. */
  lemma CardThenApprovedAddsOnce(st: Store, d: ContributionRequest, hostUrl: string, gateway: Gateway, now: int)
    requires Valid(st) && Accepted(st, d) && d.paymentMethod != Some(PIX)
    requires st.nextContributionId != 0
    requires PreferenceFor(st, d, d.paymentMethod, now, RStrip(hostUrl, '/'), gateway).Some?
    ensures var paid := PaymentRoutes.Contribute(st, Some(d), hostUrl, gateway, now).store;
            var id := st.nextContributionId;
            var gid := d.giftId.value;
            var settled := Webhook.Deliver(paid, id, "approved");
            && settled.contributions[id].status == Some(APROVADO)
            && settled.gifts[gid].raised == st.gifts[gid].raised + d.amount.value
  {
  }
}

=== FILE: strings.dfy ===
/** The handful of Python string operations the registry relies on:
    `startswith`, `in`, `replace(target, replacement, 1)`, `split(sep)[-1]`, `rstrip(c)`
    and `str(n)` for a non-negative integer. */
module Strings {
  import opened Options

  predicate StartsWith(s: string, prefix: string) {
    |prefix| <= |s| && s[..|prefix|] == prefix
  }

  predicate EndsWith(s: string, suffix: string) {
    |suffix| <= |s| && s[|s| - |suffix|..] == suffix
  }

  /** `p` occurs in `s` starting at index `i`. */
  predicate OccursAt(s: string, p: string, i: nat) {
    i + |p| <= |s| && s[i..i + |p|] == p
  }

  /** Index of the first occurrence of `p` in `s` at or after `from` (Python's `s.find(p, from)`). */
  function FindFrom(s: string, p: string, from: nat): (r: Option<nat>)
    ensures r.Some? ==> from <= r.value && OccursAt(s, p, r.value)
    ensures r.Some? ==> forall j :: from <= j < r.value ==> !OccursAt(s, p, j)
    ensures r.None? ==> forall j :: from <= j ==> !OccursAt(s, p, j)
    decreases |s| - from
  {
    if from + |p| > |s| then None
    else if s[from..from + |p|] == p then Some(from)
    else FindFrom(s, p, from + 1)
  }

  function Find(s: string, p: string): Option<nat> {
    FindFrom(s, p, 0)
  }

  /** Python's `p in s`. */
  predicate Contains(s: string, p: string) {
    Find(s, p).Some?
  }

  /** Python's `s.replace(target, replacement, 1)`: only the first occurrence is replaced. */
  function ReplaceFirst(s: string, target: string, replacement: string): (r: string)
    ensures !Contains(s, target) ==> r == s
    ensures Contains(s, target) ==>
      var i := Find(s, target).value;
      r == s[..i] + replacement + s[i + |target|..]
  {
    match Find(s, target)
    case None => s
    case Some(i) => s[..i] + replacement + s[i + |target|..]
  }

  /** When `s` starts with `target`, the replacement is exactly `replacement` followed by the rest of `s`. */
  lemma ReplaceFirstAtStart(s: string, target: string, replacement: string)
    requires StartsWith(s, target)
    ensures ReplaceFirst(s, target, replacement) == replacement + s[|target|..]
  {
  }

  /** A suffix of a suffix is a suffix. */
  lemma SuffixOfSuffix(s: string, k: nat, t: string)
    requires k <= |s| && EndsWith(s[k..], t)
    ensures EndsWith(s, t)
  {
  }

  /** An occurrence of `sep` followed by everything after it is a suffix. */
  lemma OccurrenceSuffix(s: string, sep: string, i: nat)
    requires OccursAt(s, sep, i)
    ensures EndsWith(s, sep + s[i + |sep|..])
  {
  }

  /** Python's `s.split(sep)[-1]` for a non-empty separator: the text after the
      last separator that the left-to-right split consumes, or `s` itself when
      `sep` does not occur. */
  function SplitLast(s: string, sep: string): (r: string)
    requires |sep| > 0
    ensures EndsWith(s, r)
    ensures !Contains(r, sep)
    ensures Contains(s, sep) ==> EndsWith(s, sep + r)
    ensures !Contains(s, sep) ==> r == s
    decreases |s|
  {
    match Find(s, sep)
    case None => s
    case Some(i) =>
      var rest := s[i + |sep|..];
      var r := SplitLast(rest, sep);
      SuffixOfSuffix(s, i + |sep|, r);
      if Contains(rest, sep) then
        SuffixOfSuffix(s, i + |sep|, sep + r);
        r
      else
        OccurrenceSuffix(s, sep, i);
        r
  }

  /** Python's `s.rstrip(c)` for a single character. */
  function RStrip(s: string, c: char): (r: string)
    ensures StartsWith(s, r)
    ensures r == [] || r[|r| - 1] != c
    ensures forall i :: |r| <= i < |s| ==> s[i] == c
  {
    if |s| > 0 && s[|s| - 1] == c then RStrip(s[..|s| - 1], c) else s
  }

  predicate IsDigit(ch: char) {
    '0' <= ch <= '9'
  }

  predicate AllDigits(s: string) {
    forall i :: 0 <= i < |s| ==> IsDigit(s[i])
  }

  function DigitChar(d: nat): (ch: char)
    requires d < 10
    ensures IsDigit(ch) && ch as int - '0' as int == d
  {
    "0123456789"[d]
  }

  /** Python's `str(n)` for a non-negative integer: its decimal digits. */
  function NatToString(n: nat): (r: string)
    ensures |r| > 0 && AllDigits(r)
    ensures r[0] == '0' ==> n == 0
    decreases n
  {
    if n < 10 then [DigitChar(n)] else NatToString(n / 10) + [DigitChar(n % 10)]
  }

  /** The number a string of decimal digits denotes (Python's `int(s)`). */
  function ParseDigits(s: string): nat
    requires AllDigits(s)
  {
    if s == [] then 0
    else ParseDigits(s[..|s| - 1]) * 10 + (s[|s| - 1] as int - '0' as int)
  }

  /** `int(str(n)) == n`: the decimal rendering of an id loses nothing. */
  lemma {:induction false} ParseNatToString(n: nat)
    ensures ParseDigits(NatToString(n)) == n
    decreases n
  {
    if n >= 10 {
      ParseNatToString(n / 10);
      var s := NatToString(n);
      assert s[..|s| - 1] == NatToString(n / 10);
    }
  }

  /** Distinct ids render to distinct strings. */
  lemma NatToStringInjective(m: nat, n: nat)
    requires NatToString(m) == NatToString(n)
    ensures m == n
  {
    ParseNatToString(m);
    ParseNatToString(n);
  }
}

=== FILE: validation.dfy ===
/** `ValidationService`: the contribution checks (gift availability, minimum amount,
    per-email attempt window), the duplicate-payment lookup, the disabled daily limit
    and the availability query. */
module Validation {
  import opened Options
  import opened Gifts
  import opened Contributions
  import opened Ledger

  const MIN_AMOUNT: real := 5.00
  /** Five minutes, in the seconds the model measures time in. */
  const RATE_WINDOW: int := 300
  const MAX_ATTEMPTS: nat := 5

  const ERR_UNAVAILABLE: string := "Este presente não está mais disponível"
  const ERR_MIN_AMOUNT: string := "Valor mínimo de contribuição: R$ 5,00"
  const ERR_TOO_MANY: string := "Muitas tentativas em um curto período. Tente novamente em 5 minutos"

  /** The messages `validar_contribuicao` can report. */
  const MESSAGES: set<string> := {GIFT_NOT_FOUND, ERR_UNAVAILABLE, ERR_MIN_AMOUNT, ERR_TOO_MANY}

  /** The check that reports a message: availability, then the minimum, then the rate. */
  function Stage(message: string): nat {
    if message == ERR_MIN_AMOUNT then 1
    else if message == ERR_TOO_MANY then 2
    else 0
  }

  /** Contributions from `email` created inside the window ending at `now`; a missing
      creation time never satisfies the SQL comparison. */
  function RecentAttempts(st: Store, email: string, now: int): nat {
    |set id | id in st.contributions && st.contributions[id].email == email
                && st.contributions[id].createdAt.Some?
                && st.contributions[id].createdAt.value >= now - RATE_WINDOW|
  }

  /** The per-email attempt limit: only a non-empty email can be limited, and only once
      it has a contribution created inside the window. */
  predicate RateLimited(st: Store, email: string, now: int)
    ensures RateLimited(st, email, now) ==> email != ""
    ensures RateLimited(st, email, now) ==>
              exists id :: id in st.contributions && st.contributions[id].email == email
                           && st.contributions[id].createdAt.Some?
                           && st.contributions[id].createdAt.value >= now - RATE_WINDOW
  {
    email != "" && RecentAttempts(st, email, now) >= MAX_ATTEMPTS
  }

  /** `validar_contribuicao`: the list of error messages, in the order the checks run.
      Each message comes from one check, so the list holds each at most once, ordered by
      check; together with the membership conditions this fixes the list. */
  function ValidateContribution(st: Store, giftId: nat, amount: real, email: string, now: int): (errors: seq<string>)
    ensures forall i :: 0 <= i < |errors| ==> errors[i] in MESSAGES
    ensures forall i, j :: 0 <= i < j < |errors| ==> Stage(errors[i]) < Stage(errors[j])
    ensures GIFT_NOT_FOUND in errors <==> giftId !in st.gifts
    ensures ERR_UNAVAILABLE in errors <==> giftId in st.gifts && !st.gifts[giftId].active
    ensures giftId !in st.gifts ==>
              errors == [GIFT_NOT_FOUND] + (if RateLimited(st, email, now) then [ERR_TOO_MANY] else [])
    ensures giftId in st.gifts && !st.gifts[giftId].active ==> |errors| >= 1 && errors[0] == ERR_UNAVAILABLE
    ensures giftId in st.gifts ==> (ERR_MIN_AMOUNT in errors <==> amount < MIN_AMOUNT)
    ensures ERR_TOO_MANY in errors <==> RateLimited(st, email, now)
    ensures errors == [] <==>
              giftId in st.gifts && st.gifts[giftId].active && amount >= MIN_AMOUNT && !RateLimited(st, email, now)
    ensures |errors| <= 3
  {
    var availability :=
      if giftId !in st.gifts then [GIFT_NOT_FOUND]
      else if !st.gifts[giftId].active then [ERR_UNAVAILABLE]
      else [];
    var minimum := if giftId in st.gifts && amount < MIN_AMOUNT then [ERR_MIN_AMOUNT] else [];
    var rate := if RateLimited(st, email, now) then [ERR_TOO_MANY] else [];
    availability + minimum + rate
  }

  /** Messages from the known set, strictly ordered by the check that reports them. */
  predicate InCheckOrder(errors: seq<string>) {
    && (forall i :: 0 <= i < |errors| ==> errors[i] in MESSAGES)
    && (forall i, j :: 0 <= i < j < |errors| ==> Stage(errors[i]) < Stage(errors[j]))
  }

  /** Two message lists in check order with the same messages are the same list. */
  lemma {:induction false} InCheckOrderDetermined(a: seq<string>, b: seq<string>)
    requires InCheckOrder(a) && InCheckOrder(b)
    requires forall m :: m in a <==> m in b
    ensures a == b
    decreases |a|
  {
    if |b| > 0 {
      assert b[0] in a;
    }
    if |a| > 0 {
      assert a[0] in b;
      assert |b| > 0;
      assert b[0] in a;
      var k :| 0 <= k < |b| && b[k] == a[0];
      var j :| 0 <= j < |a| && a[j] == b[0];
      assert k == 0;
      forall m ensures m in a[1..] <==> m in b[1..] {
        if m in a[1..] {
          var i :| 1 <= i < |a| && a[i] == m;
          assert Stage(a[0]) < Stage(m);
          assert m in b && m != b[0];
          var i' :| 0 <= i' < |b| && b[i'] == m;
          assert b[1..][i' - 1] == m;
        }
        if m in b[1..] {
          var i :| 1 <= i < |b| && b[i] == m;
          assert Stage(b[0]) < Stage(m);
          assert m in a && m != a[0];
          var i' :| 0 <= i' < |a| && a[i'] == m;
          assert a[1..][i' - 1] == m;
        }
      }
      InCheckOrderDetermined(a[1..], b[1..]);
      assert a == [a[0]] + a[1..] && b == [b[0]] + b[1..];
    }
  }

  /** The membership conditions of `validar_contribuicao` fix its answer: any message
      list in check order that reports exactly the failing checks is the validator's. */
  lemma ErrorsDetermined(st: Store, giftId: nat, amount: real, email: string, now: int, errors: seq<string>)
    requires InCheckOrder(errors)
    requires GIFT_NOT_FOUND in errors <==> giftId !in st.gifts
    requires ERR_UNAVAILABLE in errors <==> giftId in st.gifts && !st.gifts[giftId].active
    requires ERR_MIN_AMOUNT in errors <==> giftId in st.gifts && amount < MIN_AMOUNT
    requires ERR_TOO_MANY in errors <==> RateLimited(st, email, now)
    ensures errors == ValidateContribution(st, giftId, amount, email, now)
  {
    var v := ValidateContribution(st, giftId, amount, email, now);
    forall m ensures m in errors <==> m in v {
      if m in errors {
        var i :| 0 <= i < |errors| && errors[i] == m;
        assert m in MESSAGES;
      }
      if m in v {
        var i :| 0 <= i < |v| && v[i] == m;
        assert m in MESSAGES;
      }
    }
    InCheckOrderDetermined(errors, v);
  }

  /** The boundary of the minimum: exactly R$ 5,00 passes the amount check, and the amount
      check runs even for a deactivated gift. */
  lemma MinimumIsInclusive(st: Store, giftId: nat, email: string, now: int)
    requires giftId in st.gifts
    ensures ERR_MIN_AMOUNT !in ValidateContribution(st, giftId, 5.00, email, now)
    ensures ERR_MIN_AMOUNT in ValidateContribution(st, giftId, 4.99, email, now)
  {
  }

  /** `verificar_duplicidade`: some stored contribution already carries this payment id
      (`None` matches contributions without one, as `IS NULL` does). */
  function IsDuplicate(st: Store, paymentId: Option<string>): (r: bool)
    ensures r <==> exists id :: id in st.contributions && st.contributions[id].paymentId == paymentId
  {
    var recorded := set id | id in st.contributions :: st.contributions[id].paymentId;
    paymentId in recorded
  }

  /** `verificar_valor_maximo_diario`: the daily limit was removed; nobody exceeds it. */
  function DailyLimitExceeded(email: string): (r: bool)
    ensures !r
  {
    false
  }

  /** `validar_presente_disponivel`: (available, reason). A complete gift stays available. */
  function GiftAvailable(st: Store, giftId: nat): (r: (bool, Option<string>))
    ensures r.0 <==> giftId in st.gifts && st.gifts[giftId].active
    ensures r.0 ==> r.1.None?
    ensures giftId !in st.gifts ==> r.1 == Some(GIFT_NOT_FOUND)
    ensures giftId in st.gifts && !st.gifts[giftId].active ==> r.1 == Some(ERR_UNAVAILABLE)
  {
    if giftId !in st.gifts then (false, Some(GIFT_NOT_FOUND))
    else if !st.gifts[giftId].active then (false, Some(ERR_UNAVAILABLE))
    else (true, None)
  }

  /** The two services agree: when the gift is unavailable, the reason
      `validar_presente_disponivel` gives is the first error `validar_contribuicao` reports,
      and when it is available no availability error is reported. */
  lemma AvailabilityAgrees(st: Store, giftId: nat, amount: real, email: string, now: int)
    ensures var errors := ValidateContribution(st, giftId, amount, email, now);
            var (ok, reason) := GiftAvailable(st, giftId);
            && (!ok ==> |errors| >= 1 && errors[0] == reason.value)
            && (ok ==> GIFT_NOT_FOUND !in errors && ERR_UNAVAILABLE !in errors)
  {
  }
}

=== FILE: webhook.dfy ===
/** `routes/webhook.py`: the newer Mercado Pago webhook. The signature check parses
    the header but accepts every request; the handler maps the provider status to
    an internal one, stores it, and moves the gift's raised amount. */
module Webhook {
  import opened Options
  import opened Strings
  import opened Gifts
  import opened Contributions
  import opened Ledger
  import opened MercadoPago

  const SIGNATURE_MARKER: string := "v1="

  /** The Mercado Pago statuses the handler translates. */
  const PROVIDER_STATUSES: set<string> := {"approved", "in_process", "pending", "cancelled", "rejected", "refunded"}

  /** `X-Signature or X-Request-Id`: the first header when it is non-empty, else the second. */
  function SelectSignatureHeader(xSignature: Option<string>, xRequestId: Option<string>): (h: Option<string>)
    ensures Truthy(xSignature) ==> h == xSignature
    ensures !Truthy(xSignature) ==> h == xRequestId
  {
    if Truthy(xSignature) then xSignature else xRequestId
  }

  /** The signature carried by a header `t=...,v1=<hash>` or a bare hash: the text after
      the last `v1=` (which itself holds no `v1=`), or the whole header. */
  function SignatureValue(header: string): (v: string)
    ensures Contains(header, SIGNATURE_MARKER) ==> EndsWith(header, SIGNATURE_MARKER + v)
    ensures !Contains(v, SIGNATURE_MARKER) || v == header
    ensures !Contains(header, SIGNATURE_MARKER) ==> v == header
  {
    if Contains(header, SIGNATURE_MARKER) then SplitLast(header, SIGNATURE_MARKER) else header
  }

  /** `verify_webhook_signature`. Without a secret or without a header it accepts; with both
      it computes the HMAC-SHA256 hex digest (`hmacHex`, a parameter) of the raw body and
      compares it with the header's signature, and accepts whatever the comparison says. */
  function VerifySignature(secret: Option<string>, rawBody: string, header: Option<string>,
                           hmacHex: (string, string) -> string): (accepted: bool)
    ensures accepted
  {
    if !Truthy(secret) then true
    else if !Truthy(header) then true
    else
      var matches := hmacHex(secret.value, rawBody) == SignatureValue(header.value);
      // The source logs a mismatch and then accepts anyway: both branches return true.
      if !matches then true else true
  }

  /** The internal status stored for a provider status; unknown values pass through. */
  function MapStatus(status: Option<string>): (local: Option<string>)
    ensures status == Some("approved") ==> local == Some(APROVADO)
    ensures status == Some("in_process") || status == Some("pending") ==> local == Some(PENDENTE)
    ensures status == Some("cancelled") || status == Some("rejected") ==> local == Some(CANCELADO)
    ensures status == Some("refunded") ==> local == Some(REEMBOLSADO)
    ensures status.None? || status.value !in PROVIDER_STATUSES ==> local == status
  {
    match status
    case Some("approved") => Some(APROVADO)
    case Some("in_process") => Some(PENDENTE)
    case Some("pending") => Some(PENDENTE)
    case Some("cancelled") => Some(CANCELADO)
    case Some("rejected") => Some(CANCELADO)
    case Some("refunded") => Some(REEMBOLSADO)
    case _ => status
  }

  /** Exactly two provider texts are counted as a payment: `approved`, and the internal
      `aprovado` itself, which passes through the map unchanged. */
  lemma CountedStatuses(status: Option<string>)
    ensures MapStatus(status) == Some(APROVADO) <==> status == Some("approved") || status == Some(APROVADO)
  {
  }

  /** Likewise exactly `refunded` and `reembolsado` take the amount back. */
  lemma RefundStatuses(status: Option<string>)
    ensures MapStatus(status) == Some(REEMBOLSADO) <==> status == Some("refunded") || status == Some(REEMBOLSADO)
  {
  }

  /** Internal statuses are fixed points: mapping twice is mapping once. */
  lemma MapStatusIdempotent(status: Option<string>)
    ensures MapStatus(MapStatus(status)) == MapStatus(status)
  {
  }

  /** The change to the gift's raised amount a stored status causes. */
  function RaisedDelta(local: Option<string>, amount: real): (delta: real)
    ensures local == Some(APROVADO) ==> delta == amount
    ensures local == Some(REEMBOLSADO) ==> delta == -amount
    ensures local != Some(APROVADO) && local != Some(REEMBOLSADO) ==> delta == 0.0
  {
    if local == Some(APROVADO) then amount
    else if local == Some(REEMBOLSADO) then -amount
    else 0.0
  }

  /** `processar_webhook` either raised or returned a (possibly empty) result. */
  datatype ProcessOutcome = ProcessRaised | Processed(result: Option<WebhookResult>)

  datatype WebhookBody =
    | InvalidSignature
    | InvalidPayload
    | Ignored
    | MissingContributionId
    | ContributionNotFound
    | Updated(contributionId: nat, status: Option<string>)
    | InternalError

  datatype WebhookReply = WebhookReply(code: int, body: WebhookBody)

  /** Python truthiness of the id: absent and `0` both count as missing. */
  predicate HasContributionId(res: WebhookResult) {
    res.contributionId.Some? && res.contributionId.value != 0
  }

  /** `mercadopago_webhook`. After the (always passing) signature check and JSON parse:
      no result is ignored (200), a missing id is 400, an unknown contribution 404; none of
      these touch the store. Otherwise the mapped status is stored and the gift moves by
      `RaisedDelta`; a contribution whose gift is gone gets its status but no gift changes
      (that failure is swallowed). The previous status is never consulted. */
  function HandleWebhook(st: Store, secret: Option<string>, rawBody: string,
                         xSignature: Option<string>, xRequestId: Option<string>,
                         hmacHex: (string, string) -> string,
                         payloadParses: bool, outcome: ProcessOutcome): (r: (Store, WebhookReply))
    ensures r.1.code != 401
    ensures Valid(st) ==> Valid(r.0)
    ensures r.0.contributions.Keys == st.contributions.Keys && r.0.gifts.Keys == st.gifts.Keys
    ensures !payloadParses ==> r == (st, WebhookReply(400, InvalidPayload))
    ensures payloadParses && outcome.ProcessRaised? ==> r == (st, WebhookReply(500, InternalError))
    ensures payloadParses && outcome == Processed(None) ==> r == (st, WebhookReply(200, Ignored))
    ensures payloadParses && outcome.Processed? && outcome.result.Some? && !HasContributionId(outcome.result.value) ==>
              r == (st, WebhookReply(400, MissingContributionId))
    ensures payloadParses && outcome.Processed? && outcome.result.Some? && HasContributionId(outcome.result.value)
              && outcome.result.value.contributionId.value !in st.contributions ==>
              r == (st, WebhookReply(404, ContributionNotFound))
    ensures payloadParses && outcome.Processed? && outcome.result.Some? && HasContributionId(outcome.result.value)
              && outcome.result.value.contributionId.value in st.contributions ==>
              var id := outcome.result.value.contributionId.value;
              var status := outcome.result.value.status;
              var c := st.contributions[id];
              var local := MapStatus(status);
              && r.1 == WebhookReply(200, Updated(id, status))
              && r.0.contributions == st.contributions[id := c.(status := local)]
              && (c.giftId in st.gifts ==>
                    r.0.gifts == st.gifts[c.giftId := st.gifts[c.giftId].(raised := st.gifts[c.giftId].raised + RaisedDelta(local, c.amount))])
              && (c.giftId !in st.gifts ==> r.0.gifts == st.gifts)
  {
    var header := SelectSignatureHeader(xSignature, xRequestId);
    if !VerifySignature(secret, rawBody, header, hmacHex) then (st, WebhookReply(401, InvalidSignature))
    else if !payloadParses then (st, WebhookReply(400, InvalidPayload))
    else
      match outcome
      case ProcessRaised => (st, WebhookReply(500, InternalError))
      case Processed(None) => (st, WebhookReply(200, Ignored))
      case Processed(Some(res)) =>
        if !HasContributionId(res) then (st, WebhookReply(400, MissingContributionId))
        else if res.contributionId.value !in st.contributions then (st, WebhookReply(404, ContributionNotFound))
        else
          var id := res.contributionId.value;
          var c := st.contributions[id];
          var local := MapStatus(res.status);
          var st1 := st.(contributions := st.contributions[id := c.(status := local)]);
          var st2 := if c.giftId in st.gifts then AdjustRaised(st1, c.giftId, RaisedDelta(local, c.amount)) else st1;
          (st2, WebhookReply(200, Updated(id, res.status)))
  }

  /** Applying one provider status to a contribution through the newer handler. */
  function Deliver(st: Store, id: nat, status: string): Store {
    HandleWebhook(st, None, "", None, None, (k, m) => "", true, Processed(Some(WebhookResult(Some(id), Some(status))))).0
  }

  /** No prior-status guard: a re-delivered `approved` counts the amount again. */
  lemma ApprovedTwiceCountsTwice(st: Store, id: nat)
    requires id != 0 && id in st.contributions && st.contributions[id].giftId in st.gifts
    ensures var gid := st.contributions[id].giftId;
            Deliver(Deliver(st, id, "approved"), id, "approved").gifts[gid].raised
              == st.gifts[gid].raised + 2.0 * st.contributions[id].amount
  {
  }

  /** `approved` followed by `refunded` puts the gift back where it was. */
  lemma ApproveThenRefundRestores(st: Store, id: nat)
    requires id != 0 && id in st.contributions && st.contributions[id].giftId in st.gifts
    ensures var gid := st.contributions[id].giftId;
            Deliver(Deliver(st, id, "approved"), id, "refunded").gifts[gid].raised == st.gifts[gid].raised
  {
  }

  /** A refund is applied even to a contribution that was never approved, so the raised
      amount can drop below zero. */
  lemma RefundCanMakeRaisedNegative(st: Store, id: nat)
    requires id != 0 && id in st.contributions && st.contributions[id].giftId in st.gifts
    requires st.gifts[st.contributions[id].giftId].raised < st.contributions[id].amount
    ensures Deliver(st, id, "refunded").gifts[st.contributions[id].giftId].raised < 0.0
  {
  }
}
